=== FILE: README.md ===
# Study Buddy orchestration layer, in Dafny

Study Buddy is a Streamlit app. A user uploads documents; the app sends them to a remote assistant service (files, a vector store, an assistant bound to it, conversation threads and runs). The user can then chat about the documents or ask for a multiple-choice quiz.

This project models the app's orchestration layer as pure functions over immutable data:

- **JSON-array extraction.** The model reply is cleaned of a code fence. It then yields a greedy regular-expression candidate and a depth-counting bracket-scan candidate. These are tried in that order, and the whole cleaned text last. The JSON decoder is a parameter, `parse: string -> Option<J>`: a partial function standing in for `json.loads`.
- **Extension and size checks** on uploads, and the **citation rewriting** of chat replies.
- **The file registry** (`FileManager`). It holds a sequence of file records plus the optional vector-store id and assistant id. It covers add, lookup, removal (local and remote), id update, id listing, and the "needs update" truth table.
- **The client's run handling.**
  - A poller over an oracle trace of clock readings and run statuses.
  - The filter that selects a run's reply.
  - The shared send / run / wait / select flow of quiz generation and chat.
  - The stop-at-first-failure attach loop.
- **The session controller** (main.py). The Streamlit session is a record, and each handler is a state-to-state function: upload handling, the vector-store/assistant setup guard, the reset-on-empty step, quiz generation with thread reuse, the removal handler, and quiz scoring.

Remote calls never appear as behaviour. Each remote answer is an input: an `Option` that is `None` when the call raises, a status trace, or a listing. Python's `str` operations that the code relies on are written out in `text.dfy`: `strip`, `startswith`, `replace` (including an empty pattern), ASCII `lower`, `join` and `str(n)`.

Files:

- `wrappers.dfy`: `Option`, `Result`.
- `text.dfy`: Python string operations.
- `config.dfy`: constants.
- `filechecks.dfy`: extension and size checks.
- `extract.dfy`: JSON extraction.
- `citations.dfy`: citation rewriting.
- `registry.dfy`: the file registry.
- `client.dfy`: poller and remote flow.
- `session.dfy`: main.py handlers.

In these places the code behaves differently from what its names or comments suggest; the model follows the code:

- `add_file` has no duplicate-name check. Duplicates are skipped only by its caller, `handle_file_upload`.
- `remove_file_completely` returns the local removal's result alone. A remote cleanup failure is never reported to the caller.
- Setup does not reuse a vector store left by a failed attempt. Its guard needs both ids, so the next run creates another store.
- A failed remote upload leaves the file tracked with an empty id. It is not rolled back.

## Model

| member | source | states |
|---|---|---|
| FileChecks.BaseNameSpec | utils.py:105 | the final path component is a suffix of the path with no `/` in it, preceded by `/` whenever it is not the whole path |
| FileChecks.ComponentExtensionSpec | utils.py:105 | empty exactly when the final component has no dot strictly inside it; otherwise the lower-cased text after the last dot |
| FileChecks.ValidateIgnoresCase | utils.py:103-106 | two names that agree after lower-casing are accepted or refused together, so the check is case-insensitive |
| FileChecks.UpperCaseAccepted | utils.py:103-106 | "Notes.PDF" passes the allow-list check |
| FileChecks.LastSuffixOnly | utils.py:105 | only the last suffix counts: "archive.tar.gz" has extension "gz" and is refused |
| FileChecks.InnerSuffixIgnored | utils.py:105 | an inner suffix is ignored: "notes.gz.pdf" has extension "pdf" and is accepted, while "notes.pdf.gz" is refused |
| FileChecks.HiddenFileHasNoExtension | utils.py:105 | a name that is only a dot and an extension (".pdf") has no suffix, so it is refused |
| FileChecks.TooLargeThreshold | file_manager.py:43-45 | the size in MiB rounded to one decimal exceeds 200 exactly when the size is at least 209,767,629 bytes; every size up to 200 MiB passes |
| Text.Strip | utils.py:34 | `strip(chars)` keeps a slice of its input, all of whose removed neighbours are strippable, and whose ends are not |
| Text.ReplaceAbsent | utils.py:81 | `str.replace` with a pattern that does not occur leaves the text unchanged |
| Text.ReplaceOnce | utils.py:81 | `str.replace` with a non-empty pattern that occurs exactly once, after `u`, turns `u + pat + w` into `u + rep + w` |
| Extract.CleanFences | utils.py:33-37 | text whose stripped form does not open with a fence is untouched; otherwise the result begins and ends with no backtick, newline or space |
| Extract.CleanFencesSlice | utils.py:33-37 | for fenced text the result is a contiguous slice of the whitespace-stripped text; everything after it is fence characters, everything before it is fence characters with at most one `json` tag line among them |
| Extract.CleanFencedBlock | utils.py:33-37 | fence removal on a `json`-tagged fenced block returns the body |
| Extract.CleanTaggedFence | utils.py:33-37 | the `json` tag line is always dropped: any opening run of fence characters that starts with a fence, then the tag, a body with clean ends, then any closing run of fence characters, gives back exactly the body |
| Extract.SpacedTagDropped | utils.py:33-37 | with a space between fence and tag and no newline before the closing fence, the tag is still dropped |
| Extract.RegexCandidate | utils.py:40-43 | present exactly when some `[` precedes some `]`; then it is the span from the leftmost `[` to the last `]`, newlines included |
| Extract.ScanCandidate | utils.py:46-58 | when present, it is a bracket group starting at the first `[`: it opens with `[`, stays open on every proper prefix and balances at its end; when absent, no such group exists |
| Extract.ScanFromSpec | utils.py:46-58 | from any position, the scan returns the group begun at the first `[` when that group closes at or after the position, and nothing when it does not |
| Extract.GroupEndsWithClose | utils.py:53-57 | a scanned group ends with `]` |
| Extract.GroupUnique | utils.py:56-58 | from a given `[` at most one span is a group, so the scan's stop at the first return to depth 0 is forced |
| Extract.ScanWithinRegex | utils.py:40-58 | whenever the scan finds a group, a regex candidate exists and the group is a prefix of it |
| Extract.RegexGroupAgrees | utils.py:40-58 | when the regex span is itself one group, both candidates are the same text |
| Extract.NoBracketNoCandidate | utils.py:40-58 | a text without `[` yields no candidate |
| Extract.FirstParse | utils.py:61-68 | success exactly when some attempt decodes; the value is that of the first attempt that decodes, returned unchanged |
| Extract.ExtractFirstJsonArray | utils.py:29-71 | success exactly when some attempt (regex candidate, scan candidate, then the whole cleaned text) decodes; the result is the first decoded value whatever its shape; otherwise the extraction fails |
| Extract.FirstAttemptWins | utils.py:61-65 | if the first attempt decodes, its value is the result |
| Extract.FencedArrayRoundTrip | utils.py:29-65 | an array text written inside a `json` fence is extracted as exactly the value it decodes to |
| Extract.ProseAroundArray | utils.py:40-65 | with prose before and after an array that adds no stray brackets, the array's value is returned |
| Extract.ToleratesProseAndFence | utils.py:29-65 | a reply with prose, a fenced array and more prose yields the array's value |
| Extract.PlainTextDecodedWhole | utils.py:29-71 | a text with no `[` and no backtick is decoded only as a whole: the extraction succeeds exactly when the decoder accepts the text, with that value, and otherwise fails |
| Extract.NoJsonHere | utils.py:68-71 | "no json here" is tried only as a whole and, failing that, the extraction fails |
| Citations.CitationLine | utils.py:83-93 | a line exists exactly for a file citation or file path annotation, and it opens with the annotation's 1-based label |
| Citations.CitedFrom | utils.py:80-93 | the indices of the cited annotations: strictly increasing, all cited, and none left out |
| Citations.RewriteCitations | utils.py:80-96 | the loop runs to the end exactly when every annotation's marker is a string; it then lists one line per cited annotation, in order, each the line of that annotation |
| Citations.ProcessMessageWithCitations | utils.py:73-101 | no annotations give the reply and a blank line; a first marker that is not a string leaves the reply as it was, with no citation block; a second one that is not a string keeps the first replacement only; the full output is stated by SingleCitation and CitationBlock |
| Citations.NoAnnotations | utils.py:95-96 | with no annotations the output is the text followed by a blank line |
| Citations.SingleCitation | utils.py:73-101 | with one annotation whose marker occurs exactly once in the reply, the marker is replaced in place by " [1]", the rest of the reply is kept, and a blank line and the annotation's citation line (if it is cited) follow |
| Citations.CitationBlock | utils.py:80-96 | the output is the rewritten text, a blank line and the lines joined by newlines; there are at most as many lines as annotations, each labelled by a cited annotation |
| Registry.FindByName | file_manager.py:75-77 | absent exactly when no record has the name; otherwise the position of the first record with it |
| Registry.GetFileByName | file_manager.py:73-78 | the first record with the name, or none when no record has it |
| Registry.HasIffFound | file_manager.py:80-82 | the membership test is true exactly when the lookup finds a record, and that record carries the name |
| Registry.AddFile | file_manager.py:35-71 | an unsupported extension is refused before the size check; an oversized file is refused; otherwise exactly one record is appended, with the name, no remote id and the lower-cased extension as its type; nothing checks for duplicates |
| Registry.RemoveFile | file_manager.py:84-94 | true exactly when a record has the name; then only the first such record is removed; otherwise nothing changes; the ids are kept |
| Registry.UpdateFileId | file_manager.py:116-123 | found exactly when a record has the name; only the first such record's id changes, and every other field and record stays |
| Registry.FileIds | file_manager.py:100-102 | no empty id is listed, and there are at most as many ids as records |
| Registry.FileIdsMembers | file_manager.py:100-102 | an id is listed exactly when it is the non-empty id of some record |
| Registry.FileIdsAppend | file_manager.py:100-102 | the ids of two runs of records are the ids of each, concatenated, so ids keep record order |
| Registry.NeedsVectorStoreUpdate | file_manager.py:196-206 | with no files, true exactly when either id is held; with files, true exactly when no vector store id is held |
| Registry.ClearVectorStoreInfo | file_manager.py:208-211 | both ids are dropped and the files kept |
| Registry.ClearedNeedsUpdateIffFiles | file_manager.py:196-211 | after clearing, an update is needed exactly when files remain; clearing twice is clearing once |
| Registry.RemoveFileFromOpenai | file_manager.py:158-185 | found exactly when a record has the name; a detach is made exactly when both the store id and the file id are non-empty, a delete exactly when the file id is non-empty, detach first; no other or repeated call is made; all calls concern that file's id |
| Registry.RemoveFileCompletely | file_manager.py:187-194 | the answer is whether a record had the name; the registry is the local removal's; remote calls are made only when a client is given |
| Registry.RemovalIgnoresRemoteOutcome | file_manager.py:158-194 | the removal's result is the same whatever the remote detach and delete answer |
| Registry.RemoveUndoesAdd | file_manager.py:35-94 | adding a file under a new name and removing it again restores the registry |
| Registry.AddKeepsFileIds | file_manager.py:56-67 | a new record has no remote id, so adding leaves the id list unchanged |
| Registry.UpdateFileIdIdempotent | file_manager.py:116-123 | recording the same id twice equals recording it once |
| Registry.UpdateFileIdExtendsIds | file_manager.py:100-123 | recording an upload's id on a record without one adds exactly that id to the id list, at the record's place |
| Registry.RemoveKeepsUnique | file_manager.py:84-94 | removal keeps names distinct, and with distinct names the removed name is gone |
| Client.PollFrom | openai_client.py:147-155 | the loop stops at a check that is over time, a retrieval that raised, or a terminal status; every earlier check had time left and a run in progress |
| Client.WaitForRunCompletion | openai_client.py:143-155 | times out exactly when the stopping check is past the timeout; raises exactly when that retrieval raised; otherwise returns the terminal status seen there |
| Client.WaitStopsAtFirstStop | openai_client.py:147-153 | the result is at the first check that can stop the loop |
| Client.NeverTerminalTimesOut | openai_client.py:145-149 | a run that never reaches a terminal status ends in a timeout with no result |
| Client.PollCountBound | openai_client.py:148-155 | with one-second sleeps, the number of status retrievals made (one per check that did not time out) is at most the time budget plus one |
| Client.GetAssistantMessages | openai_client.py:157-161 | exactly the messages of the run with role "assistant" are kept, and no more messages than listed |
| Client.SelectionKeepsOrder | openai_client.py:161 | selection distributes over concatenation, so listing order is kept |
| Client.TextValues | openai_client.py:191-194 | exactly the text parts' values are collected |
| Client.TextValuesAppend | openai_client.py:191-194 | collection distributes over concatenation of the parts, so the parts' order is kept |
| Client.NoTextValues | openai_client.py:191-194 | parts none of which is text contribute no value |
| Client.QuizText | openai_client.py:196 | the quiz text has no leading or trailing whitespace |
| Client.NoTextPartsNoText | openai_client.py:191-196 | a reply with no text part gives an empty quiz text |
| Client.SingleTextPart | openai_client.py:191-196 | a reply whose only text part is `v`, among any other parts, gives `v` stripped of whitespace |
| Client.SubmitAndAwait | openai_client.py:168-188 | exactly one user message is sent, then, if accepted, exactly one run is started; success exactly when the run completes and the listing holds a reply of that run, the first such reply; another terminal status fails with that status |
| Client.GenerateQuiz | openai_client.py:166-204 | the same calls as one exchange; an exchange failure propagates; on a reply, success exactly when extraction succeeds, with the extracted value |
| Client.ChatWithAssistant | openai_client.py:206-235 | the same calls as one exchange; a reply with no content fails; otherwise the first part's text, or its string form |
| Client.QuizRunIncompleteFails | openai_client.py:180-183 | quiz generation fails with status `s` exactly when the message is accepted, the run starts and ends within the quiz timeout in the terminal status `s` other than "completed"; then one message and one run were made |
| Client.ChatRunIncompleteFails | openai_client.py:216-219 | chat fails with status `s` exactly when the message is accepted, the run starts and ends within the chat timeout in the terminal status `s` other than "completed"; then one message and one run were made |
| Client.FencedReplyGivesQuiz | openai_client.py:191-200 | a reply whose only text part is a `json`-fenced array makes quiz generation succeed with the value that array decodes to |
| Client.AttachFilesToVectorStore | openai_client.py:77-80 | the ids attached are a prefix of the list, all of whose attaches succeeded; it stops at the first failing id, and attaches all ids when none fails |
| Client.AllAttachedWhenAllSucceed | openai_client.py:77-80 | when every attach succeeds, every id is attached |
| Session.UploadOne | main.py:69-92 | a file is skipped exactly when its name is already tracked; a refused file changes nothing; the success notice is shown exactly when the file is admitted, uploaded, and either no vector store is held or the attach succeeds; an admitted file is appended with the uploaded id, or with none when the upload raised; an attach happens only when a vector store id is held |
| Session.HandleFileUpload | main.py:64-92 | one notice per file; existing records are kept as a prefix; ids are untouched; every attach goes to the recorded vector store |
| Session.UploadAdmits | main.py:69-92 | every admissible file of the batch is tracked afterwards, whatever happened to other files or to remote calls |
| Session.UploadKeepsNamesUnique | main.py:71-73 | a registry with distinct names keeps them distinct through an upload batch |
| Session.PresentStaysPresent | main.py:69-92 | uploads never drop a tracked file |
| Session.SetupVectorStoreAndAssistant | main.py:95-127 | does nothing with no files or with both ids held; otherwise creates a vector store first; records its id as soon as it exists; records the assistant only when every step succeeds |
| Session.SetupThenIdle | main.py:100-103 | after a successful setup with non-empty ids, setup does nothing |
| Session.FailedAssistantRecreatesStore | main.py:101-127 | when the assistant cannot be created, the store id stays recorded with no assistant, and the next setup creates and records another store |
| Session.ResetOnEmpty | main.py:230-236 | with no files and stale ids: both ids cleared, chat stopped and emptied, quiz and quiz thread dropped, uploader version one higher; otherwise no change |
| Session.SyncRegistry | main.py:228-237 | files are kept; with no files, afterwards no id is held and no update is pending, and the session is unchanged exactly when none was pending, otherwise chat and quiz state are emptied and the uploader version goes up by one; with files only the registry may change, not at all when it is already set up or no store can be created, and a created store is recorded so no update is pending, with the assistant too when attaching and creation succeed |
| Session.SyncSettlesWhenEmpty | main.py:228-237 | with no files, one sync leaves no id held and a second changes nothing |
| Session.GenerateQuizHandler | main.py:129-150 | refused with no files; a quiz thread is created only when none is held and is kept even if generation fails; an existing one is reused; chat state is untouched; the quiz is replaced only on success, by the generated value |
| Session.QuizThreadReused | main.py:136-144 | a second quiz request goes to the thread the first created |
| Session.StartChat | main.py:152-165 | refused with no files and nothing changes; otherwise the chat flag is set even if thread creation raises, a created thread becomes the chat thread, success is reported exactly when creation succeeded, and no other field changes |
| Session.ChatThreadSurvivesQuiz | main.py:136-165 | a quiz request after a chat start keeps the chat thread and flag, and records its own new quiz thread separately |
| Session.RemoveHandler | main.py:251-271 | success is reported exactly when the removal returns true; the uploader version goes up by one and its remembered state is emptied either way; nothing else changes |
| Session.ListedFileRemovedOk | main.py:251-261 | for a file listed in the sidebar the handler always reports success, whatever the remote side answers |
| Session.RemoveLastFileThenSync | main.py:228-265 | removing the only file and syncing leaves no id held; if one was held, chat and quiz state are emptied too |
| Session.ScoreQuiz | main.py:325-339 | the score is the number of questions whose selected option equals the correct one exactly, at most the number of questions, with one result line per question in order |
| Session.CorrectAmongCounts | main.py:326-332 | the running count equals the size of the set of correctly answered questions |
| Session.ScoreExample | main.py:325-337 | two questions, one answered right, score one |

## Left out

- Disk I/O: writing the temporary copy in `add_file`, `cleanup_temp_file`, `create_temp_filename` (wall-clock based) and `validate_files_for_processing` (uses `os.path.exists`). The temporary path is an input to `AddFile`.
- `get_file_summary` (local-time formatting), `get_supported_extensions_text` (depends on set iteration order), `get_all_temp_paths`, `get_file_count` and `cleanup_all_files`: they feed only rendering or disk clean-up.
- Registry.UploadedFile: the size is kept in bytes, not as the rounded float in MiB; the float rounding is replaced by the exact integer comparison of `FileChecks.TooLarge`.
- `json.loads`: kept abstract as the `parse` parameter; no JSON parser is written.
- The remote SDK calls (files, vector stores, assistants, threads, runs): replaced by oracle answers. Their semantics are not modelled.
- `upload_file`, `create_vector_store`, `create_assistant`, `create_thread`, `send_message` and `run_assistant`: each only forwards an SDK answer or raise. They appear as the `Option` answers of the oracles.
- Real time and `time.sleep`: the poller reads an abstract clock, `elapsed(k)`. `SleepsBetweenChecks` requires it to advance at least one second per iteration.
- Client.WaitForRunCompletion: requires that clock property. A clock that stands still would make the source loop forever, and that case is not modelled.
- The text of the quiz prompt and of the quiz run's instructions: they are the symbolic `Prompt` values `QuizGenerationPrompt` and `QuizRunInstructions`.
- Logging and every Streamlit rendering call, widget and `st.rerun`.
- `handle_chat_message` and the chat input block: they forward to `ChatWithAssistant` and `ProcessMessageWithCitations` and append to the history. (`start_chat` is modelled, as `Session.StartChat`.)
- The upload pre-filter at main.py:217-221: it drops names already tracked, and `HandleFileUpload` skips those same names itself.
- app.py: a one-shot script of live remote calls.
- `initialize_openai_client`: the client is always present in the model; `RemoveFileCompletely` takes `hasClient` for the case without one.
- Citations.Annotation: an absent or non-string `text` attribute is one case, `None`. A present cited-text attribute is carried as its `str` form.
- Citations: the exception path for a missing first content part (`message.content[0]` raising inside the handler) is not modelled. The model starts from the reply text and its annotations.
- Session.ScoreQuiz: takes one selected option per question, as the form collects them. A quiz item missing its `correct` key (a `KeyError` in the source) is not modelled; items are the `QuizItem` record.
- Text.Lower: ASCII case mapping only. Python's full Unicode lower-casing is not modelled.
- FileChecks.BaseNameSpec: takes the text after the last `/`. `pathlib`'s normalisation of trailing or repeated slashes is not modelled.

=== FILE: citations.dfy ===
/** Citation formatting of an assistant reply (utils.process_message_with_citations):
    every annotation's marker text in the reply is replaced by a bracketed number,
    and one line per file annotation is listed under the reply. */
module Citations {
  import opened Wrappers
  import opened Text

  /** What an annotation points at. For a file citation, `quote` is the quote
      attribute (`None` when absent or `None`) and `citedText` the `text` attribute
      (`None` when absent; a present value is carried as its `str` form). */
  datatype Target =
    | FileCitation(quote: Option<string>, citedText: Option<string>)
    | FilePath
    | Unmarked

  /** One annotation: the marker `text` it stands for in the reply (`None` when
      that is not a string, so that `str.replace` raises) and its target. */
  datatype Annotation = Annotation(text: Option<string>, target: Target)

  /** "[n]" for the annotation at index `i`; numbering starts at 1. */
  function Label(i: nat): string {
    "[" + NatToString(i + 1) + "]"
  }

  /** The text put in place of annotation `i`'s marker. */
  function Marker(i: nat): string {
    " " + Label(i)
  }

  /** The quote shown for a file citation: a non-empty quote, else the cited text,
      else the words "cited text". */
  function QuoteOf(quote: Option<string>, citedText: Option<string>): string {
    if quote.Some? && quote.value != "" then quote.value else citedText.GetOr("cited text")
  }

  predicate Cited(a: Annotation) {
    !a.target.Unmarked?
  }

  /** The citation line annotation `i` contributes, if any. */
  function CitationLine(i: nat, a: Annotation, filename: string): (r: Option<string>)
    ensures r.Some? <==> Cited(a)
    ensures r.Some? ==> StartsWith(r.value, Label(i) + " ")
  {
    match a.target
    case FileCitation(q, t) =>
      var line := Label(i) + " " + QuoteOf(q, t) + " from " + filename;
      assert line == (Label(i) + " ") + (QuoteOf(q, t) + " from " + filename);
      Some(line)
    case FilePath =>
      var line := Label(i) + " Click [here](#) to download " + filename;
      assert line == (Label(i) + " ") + ("Click [here](#) to download " + filename);
      Some(line)
    case Unmarked => None
  }

  /** The state after the loop over annotations: the rewritten reply, the citation
      lines collected, and whether the loop ran to the end without raising. */
  datatype Rewrite = Rewrite(value: string, citations: seq<string>, complete: bool)

  /** The loop from annotation `i` on. An annotation whose marker is not a string
      stops it, keeping the replacements already made and dropping the lines. */
  function RewriteFrom(value: string, anns: seq<Annotation>, i: nat, filename: string): Rewrite
    requires i <= |anns|
    decreases |anns| - i
  {
    if i == |anns| then
      Rewrite(value, [], true)
    else
      match anns[i].text
      case None => Rewrite(value, [], false)
      case Some(t) =>
        var rest := RewriteFrom(ReplaceAll(value, t, Marker(i)), anns, i + 1, filename);
        var line := CitationLine(i, anns[i], filename);
        Rewrite(rest.value, (if line.Some? then [line.value] else []) + rest.citations, rest.complete)
  }

  /** The reply as displayed: the rewritten text, a blank line and the citation
      lines; when an annotation raised, the text as rewritten up to that point,
      with no citation lines (the first annotation raising leaves the reply as it
      was; the second raising keeps the first replacement only). */
  function ProcessMessageWithCitations(value: string, anns: seq<Annotation>, filename: string): (r: string)
    ensures |anns| == 0 ==> r == value + "\n\n"
    ensures |anns| > 0 && anns[0].text.None? ==> r == value
    ensures |anns| >= 2 && anns[0].text.Some? && anns[1].text.None? ==>
      r == ReplaceAll(value, anns[0].text.value, Marker(0))
  {
    var rw := RewriteFrom(value, anns, 0, filename);
    assert |anns| >= 2 && anns[0].text.Some? && anns[1].text.None? ==>
      var first := ReplaceAll(value, anns[0].text.value, Marker(0));
      RewriteFrom(first, anns, 1, filename) == Rewrite(first, [], false);
    if rw.complete then rw.value + "\n\n" + Join(rw.citations, "\n") else rw.value
  }

  /** Indices from `i` on, in increasing order, of the annotations that are cited. */
  function CitedFrom(anns: seq<Annotation>, i: nat): (idx: seq<nat>)
    requires i <= |anns|
    ensures forall j :: 0 <= j < |idx| ==> i <= idx[j] < |anns| && Cited(anns[idx[j]])
    ensures forall j, k :: 0 <= j < k < |idx| ==> idx[j] < idx[k]
    ensures forall n :: i <= n < |anns| && Cited(anns[n]) ==> n in idx
    ensures |idx| <= |anns| - i
    decreases |anns| - i
  {
    if i == |anns| then []
    else if Cited(anns[i]) then [i] + CitedFrom(anns, i + 1)
    else CitedFrom(anns, i + 1)
  }

  /** The loop runs to the end exactly when every marker from `i` on is a string;
      it then lists, in order, one line per cited annotation, numbered by its index. */
  lemma {:induction false} RewriteCitations(value: string, anns: seq<Annotation>, i: nat, filename: string)
    requires i <= |anns|
    ensures RewriteFrom(value, anns, i, filename).complete <==> forall k :: i <= k < |anns| ==> anns[k].text.Some?
    ensures var rw := RewriteFrom(value, anns, i, filename);
      var idx := CitedFrom(anns, i);
      rw.complete ==>
        && |rw.citations| == |idx|
        && forall j :: 0 <= j < |idx| ==> Some(rw.citations[j]) == CitationLine(idx[j], anns[idx[j]], filename)
    decreases |anns| - i
  {
    if i < |anns| && anns[i].text.Some? {
      var t := anns[i].text.value;
      RewriteCitations(ReplaceAll(value, t, Marker(i)), anns, i + 1, filename);
    }
  }

  /** One annotation whose marker occurs once in the reply: the marker becomes
      " [1]" in place, the rest of the reply is kept, and the citation line (if the
      annotation is cited) follows a blank line. */
  lemma SingleCitation(u: string, t: string, w: string, target: Target, filename: string)
    requires |t| > 0
    requires forall i :: OccursAt(u + t + w, t, i) ==> i == |u|
    ensures var a := Annotation(Some(t), target);
      ProcessMessageWithCitations(u + t + w, [a], filename)
        == u + Marker(0) + w + "\n\n" + (if Cited(a) then CitationLine(0, a, filename).value else "")
  {
    var a := Annotation(Some(t), target);
    ReplaceOnce(u, t, w, Marker(0));
    var replaced := ReplaceAll(u + t + w, t, Marker(0));
    assert RewriteFrom(replaced, [a], 1, filename) == Rewrite(replaced, [], true);
    var line := CitationLine(0, a, filename);
    var rw := RewriteFrom(u + t + w, [a], 0, filename);
    assert rw == Rewrite(replaced, if line.Some? then [line.value] else [], true);
    assert Join(rw.citations, "\n") == if line.Some? then line.value else "";
  }

  /** With no annotations the reply is shown followed by a blank line. */
  lemma NoAnnotations(value: string, filename: string)
    ensures ProcessMessageWithCitations(value, [], filename) == value + "\n\n"
  {
  }

  /** The citation block: at most one line per annotation, each starting with the
      label of the annotation it comes from, and lines appear in annotation order. */
  lemma {:induction false} CitationBlock(value: string, anns: seq<Annotation>, filename: string)
    requires forall k :: 0 <= k < |anns| ==> anns[k].text.Some?
    ensures var rw := RewriteFrom(value, anns, 0, filename);
      && rw.complete
      && ProcessMessageWithCitations(value, anns, filename) == rw.value + "\n\n" + Join(rw.citations, "\n")
      && |rw.citations| <= |anns|
      && forall j :: 0 <= j < |rw.citations| ==>
           exists i :: 0 <= i < |anns| && Cited(anns[i]) && StartsWith(rw.citations[j], Label(i) + " ")
  {
    RewriteCitations(value, anns, 0, filename);
    var rw := RewriteFrom(value, anns, 0, filename);
    var idx := CitedFrom(anns, 0);
    forall j | 0 <= j < |rw.citations|
      ensures exists i :: 0 <= i < |anns| && Cited(anns[i]) && StartsWith(rw.citations[j], Label(i) + " ")
    {
      var i := idx[j];
      assert Some(rw.citations[j]) == CitationLine(i, anns[i], filename);
    }
  }
}

=== FILE: client.dfy ===
/** The assistant-run side of the client (openai_client.StudyBuddyClient): the
    poller that waits for a run, the selection of its reply, and the control
    flow of quiz generation and chat. Every remote answer is an oracle input. */
module Client {
  import opened Wrappers
  import opened Text
  import opened Config
  import opened Extract

  /** Run statuses that end the wait. */
  const TerminalStatuses: set<string> := {"completed", "failed", "cancelled", "expired"}

  // ---------------------------------------------------------------------------
  // Waiting for a run.

  /** The clock as the poller sees it: `elapsed(k)` is the time since the start
      read at the k-th check of the loop. A one-second sleep separates checks,
      so readings advance by at least one second per iteration. */
  ghost predicate SleepsBetweenChecks(elapsed: nat -> real) {
    forall i: nat, j: nat :: i < j ==> elapsed(j) - elapsed(i) >= (j - i) as real
  }

  /** Checks `0 .. k - 1` each found time left and retrieved a run still in progress. */
  ghost predicate PolledThrough(timeout: int, elapsed: nat -> real, status: nat -> Option<string>, k: nat) {
    forall j: nat :: j < k ==>
      elapsed(j) <= timeout as real && status(j).Some? && status(j).value !in TerminalStatuses
  }

  /** Check `k` ends the loop: time is up, the retrieval raised, or the run is over. */
  ghost predicate StopsAt(timeout: int, elapsed: nat -> real, status: nat -> Option<string>, k: nat) {
    elapsed(k) > timeout as real || status(k).None? || status(k).value in TerminalStatuses
  }

  /** How a wait ended, and at which check. */
  datatype PollResult =
    | Finished(status: string, index: nat)
    | TimedOut(index: nat)
    | RetrieveRaised(index: nat)

  /** The number of checks the clock leaves room for after the first. */
  function Budget(timeout: int, elapsed: nat -> real): int {
    (timeout as real - elapsed(0)).Floor
  }

  /** The loop of wait_for_run_completion from check `k` on. `status(k)` is what
      the retrieval at check `k` returns, `None` when it raises. */
  function PollFrom(timeout: int, elapsed: nat -> real, status: nat -> Option<string>, k: nat): (r: PollResult)
    requires SleepsBetweenChecks(elapsed)
    requires PolledThrough(timeout, elapsed, status, k)
    ensures k <= r.index && PolledThrough(timeout, elapsed, status, r.index)
    ensures r.TimedOut? ==> elapsed(r.index) > timeout as real
    ensures r.RetrieveRaised? ==> elapsed(r.index) <= timeout as real && status(r.index).None?
    ensures r.Finished? ==>
      elapsed(r.index) <= timeout as real && status(r.index) == Some(r.status) && r.status in TerminalStatuses
    decreases if elapsed(k) > timeout as real then 0 else Budget(timeout, elapsed) - k + 1
  {
    if elapsed(k) > timeout as real then
      TimedOut(k)
    else
      assert k > 0 ==> elapsed(k) - elapsed(0) >= k as real;
      match status(k)
      case None => RetrieveRaised(k)
      case Some(s) =>
        if s in TerminalStatuses then Finished(s, k)
        else
          assert elapsed(k + 1) <= timeout as real ==> elapsed(k + 1) - elapsed(0) >= (k + 1) as real;
          PollFrom(timeout, elapsed, status, k + 1)
  }

  /** wait_for_run_completion. */
  function WaitForRunCompletion(timeout: int, elapsed: nat -> real, status: nat -> Option<string>): (r: PollResult)
    requires SleepsBetweenChecks(elapsed)
    ensures PolledThrough(timeout, elapsed, status, r.index) && StopsAt(timeout, elapsed, status, r.index)
    ensures r.TimedOut? <==> elapsed(r.index) > timeout as real
    ensures r.RetrieveRaised? <==> elapsed(r.index) <= timeout as real && status(r.index).None?
    ensures r.Finished? ==> status(r.index) == Some(r.status) && r.status in TerminalStatuses
  {
    PollFrom(timeout, elapsed, status, 0)
  }

  /** The wait stops at the first check that can stop it: whichever check is
      the first stopping point is the one the result reports. */
  lemma {:induction false} WaitStopsAtFirstStop(timeout: int, elapsed: nat -> real, status: nat -> Option<string>, k: nat)
    requires SleepsBetweenChecks(elapsed)
    requires PolledThrough(timeout, elapsed, status, k) && StopsAt(timeout, elapsed, status, k)
    ensures WaitForRunCompletion(timeout, elapsed, status).index == k
  {
  }

  /** A run that never reaches a terminal status, and whose retrievals never
      raise, always ends in a timeout. */
  lemma NeverTerminalTimesOut(timeout: int, elapsed: nat -> real, status: nat -> Option<string>)
    requires SleepsBetweenChecks(elapsed)
    requires forall j: nat :: status(j).Some? && status(j).value !in TerminalStatuses
    ensures WaitForRunCompletion(timeout, elapsed, status).TimedOut?
  {
  }

  /** The number of status retrievals the wait makes: one per check, except a
      check that finds the time already up, which retrieves nothing. */
  function Retrievals(r: PollResult): nat {
    if r.TimedOut? then r.index else r.index + 1
  }

  /** With one-second sleeps, the loop makes at most `timeout - elapsed(0) + 1`
      retrievals before it stops, or none when the first check finds the time up. */
  lemma {:induction false} PollCountBound(timeout: int, elapsed: nat -> real, status: nat -> Option<string>)
    requires SleepsBetweenChecks(elapsed)
    ensures var n := Retrievals(WaitForRunCompletion(timeout, elapsed, status));
      n == 0 || n as real <= timeout as real - elapsed(0) + 1.0
  {
    var r := WaitForRunCompletion(timeout, elapsed, status);
    if r.TimedOut? {
      if r.index > 0 {
        var last: nat := r.index - 1;
        assert elapsed(last) <= timeout as real;
        assert last > 0 ==> elapsed(last) - elapsed(0) >= last as real;
      }
    } else {
      assert elapsed(r.index) <= timeout as real;
      assert r.index > 0 ==> elapsed(r.index) - elapsed(0) >= r.index as real;
    }
  }

  // ---------------------------------------------------------------------------
  // Selecting the reply.

  /** A content part of a message: a text part, or another kind shown by its `str` form. */
  datatype ContentPart = TextPart(value: string) | OtherPart(repr: string)

  /** A message of a thread; `runId` is `None` for messages no run produced. */
  datatype Message = Message(runId: Option<string>, role: string, content: seq<ContentPart>)

  predicate IsReplyOf(m: Message, runId: string) {
    m.runId == Some(runId) && m.role == "assistant"
  }

  /** get_assistant_messages on a listing: the assistant messages of the run, in listing order. */
  function GetAssistantMessages(listing: seq<Message>, runId: string): (r: seq<Message>)
    ensures |r| <= |listing|
    ensures forall m :: m in r <==> m in listing && IsReplyOf(m, runId)
  {
    if |listing| == 0 then []
    else if IsReplyOf(listing[0], runId) then [listing[0]] + GetAssistantMessages(listing[1..], runId)
    else GetAssistantMessages(listing[1..], runId)
  }

  /** The selection keeps listing order: selecting from two runs of messages is
      selecting from each and concatenating. */
  lemma {:induction false} SelectionKeepsOrder(a: seq<Message>, b: seq<Message>, runId: string)
    ensures GetAssistantMessages(a + b, runId) == GetAssistantMessages(a, runId) + GetAssistantMessages(b, runId)
  {
    if |a| > 0 {
      assert (a + b)[1..] == a[1..] + b;
      SelectionKeepsOrder(a[1..], b, runId);
    } else {
      assert a + b == b;
    }
  }

  /** The values of the text parts, in order. */
  function TextValues(parts: seq<ContentPart>): (r: seq<string>)
    ensures |r| <= |parts|
    ensures forall v :: v in r <==> TextPart(v) in parts
  {
    if |parts| == 0 then []
    else
      var rest := TextValues(parts[1..]);
      assert forall p :: p in parts <==> p == parts[0] || p in parts[1..];
      match parts[0]
      case TextPart(v) => [v] + rest
      case OtherPart(_) => rest
  }

  /** Text values keep part order: the values of two runs of parts are those
      of each, concatenated. */
  lemma {:induction false} TextValuesAppend(a: seq<ContentPart>, b: seq<ContentPart>)
    ensures TextValues(a + b) == TextValues(a) + TextValues(b)
  {
    if |a| > 0 {
      assert (a + b)[1..] == a[1..] + b;
      assert (a + b)[0] == a[0];
      TextValuesAppend(a[1..], b);
    } else {
      assert a + b == b;
    }
  }

  /** A text part contributes its value; any other part contributes nothing. */
  lemma TextValuesOne(p: ContentPart)
    ensures TextValues([p]) == if p.TextPart? then [p.value] else []
  {
    assert [p][1..] == [];
  }

  /** The text handed to the extractor: the text parts joined by newlines, stripped. */
  function QuizText(m: Message): (r: string)
    ensures r == [] || (!IsSpace(r[0]) && !IsSpace(r[|r| - 1]))
  {
    Strip(Join(TextValues(m.content), "\n"), IsSpace)
  }

  /** A message made only of non-text parts gives an empty quiz text. */
  lemma NoTextPartsNoText(m: Message)
    requires forall k :: 0 <= k < |m.content| ==> m.content[k].OtherPart?
    ensures QuizText(m) == []
  {
    NoTextValues(m.content);
  }

  lemma {:induction false} NoTextValues(parts: seq<ContentPart>)
    requires forall k :: 0 <= k < |parts| ==> parts[k].OtherPart?
    ensures TextValues(parts) == []
  {
    if |parts| > 0 {
      NoTextValues(parts[1..]);
    }
  }

  /** Non-text parts around the one text part are ignored: the quiz text is that
      part's value, stripped. */
  lemma SingleTextPart(m: Message, pre: seq<ContentPart>, v: string, post: seq<ContentPart>)
    requires m.content == pre + [TextPart(v)] + post
    requires forall k :: 0 <= k < |pre| ==> pre[k].OtherPart?
    requires forall k :: 0 <= k < |post| ==> post[k].OtherPart?
    ensures QuizText(m) == Strip(v, IsSpace)
  {
    TextValuesAppend(pre + [TextPart(v)], post);
    TextValuesAppend(pre, [TextPart(v)]);
    TextValuesOne(TextPart(v));
    NoTextValues(pre);
    NoTextValues(post);
    assert TextValues(m.content) == [v];
  }

  // ---------------------------------------------------------------------------
  // One exchange with the assistant.

  /** Texts sent that the model keeps symbolic: the quiz prompt and the quiz
      run's instructions from the configuration, or given text. */
  datatype Prompt = QuizGenerationPrompt | QuizRunInstructions | Given(text: string)

  /** A remote call that changes the thread. */
  datatype Call =
    | SendMessage(threadId: string, content: Prompt)
    | StartRun(threadId: string, assistantId: Option<string>, instructions: Prompt)

  /** What the remote side answers during one exchange: whether the message is
      accepted, the run id (`None` when starting the run raises), the poller's
      clock and statuses, and the thread listing (`None` when listing raises). */
  datatype RunOracle = RunOracle(
    sendOk: bool,
    runId: Option<string>,
    elapsed: nat -> real,
    status: nat -> Option<string>,
    listing: Option<seq<Message>>)

  ghost predicate WellTimed(o: RunOracle) {
    SleepsBetweenChecks(o.elapsed)
  }

  /** The ways an exchange fails, each a raise in the source. */
  datatype ClientError =
    | SendFailed
    | RunStartFailed
    | RunTimedOut
    | RetrieveFailed
    | NotCompleted(status: string)
    | ListFailed
    | NoAssistantMessage
    | NoContent
    | NotJson

  /** The calls an exchange made, in order, and its result. */
  datatype Exchange<T> = Exchange(calls: seq<Call>, outcome: Result<T, ClientError>)

  /** The steps generate_quiz and chat_with_assistant share: send one user
      message, start one run, wait for it, and take the first assistant message
      of that run. */
  function SubmitAndAwait(threadId: string, assistantId: Option<string>, content: Prompt,
                          instructions: Prompt, timeout: int, o: RunOracle): (r: Exchange<Message>)
    requires WellTimed(o)
    ensures 1 <= |r.calls| <= 2 && r.calls[0] == SendMessage(threadId, content)
    ensures |r.calls| == 2 <==> o.sendOk
    ensures |r.calls| == 2 ==> r.calls[1] == StartRun(threadId, assistantId, instructions)
    ensures r.outcome.Success? <==>
      && o.sendOk && o.runId.Some?
      && WaitForRunCompletion(timeout, o.elapsed, o.status) == Finished("completed", WaitForRunCompletion(timeout, o.elapsed, o.status).index)
      && o.listing.Some? && |GetAssistantMessages(o.listing.value, o.runId.value)| > 0
    ensures r.outcome.Success? ==> r.outcome.value == GetAssistantMessages(o.listing.value, o.runId.value)[0]
    ensures r.outcome.Success? ==> IsReplyOf(r.outcome.value, o.runId.value) && r.outcome.value in o.listing.value
    ensures o.sendOk && o.runId.Some? && WaitForRunCompletion(timeout, o.elapsed, o.status).Finished? ==>
      var s := WaitForRunCompletion(timeout, o.elapsed, o.status).status;
      s != "completed" ==> r.outcome == Failure(NotCompleted(s))
  {
    var send := SendMessage(threadId, content);
    if !o.sendOk then Exchange([send], Failure(SendFailed))
    else
      var calls := [send, StartRun(threadId, assistantId, instructions)];
      match o.runId
      case None => Exchange(calls, Failure(RunStartFailed))
      case Some(runId) =>
        match WaitForRunCompletion(timeout, o.elapsed, o.status)
        case TimedOut(_) => Exchange(calls, Failure(RunTimedOut))
        case RetrieveRaised(_) => Exchange(calls, Failure(RetrieveFailed))
        case Finished(s, _) =>
          if s != "completed" then Exchange(calls, Failure(NotCompleted(s)))
          else match o.listing
            case None => Exchange(calls, Failure(ListFailed))
            case Some(listing) =>
              var replies := GetAssistantMessages(listing, runId);
              if |replies| == 0 then Exchange(calls, Failure(NoAssistantMessage))
              else
                assert replies[0] in replies;
                Exchange(calls, Success(replies[0]))
  }

  /** generate_quiz: the reply's text parts are joined, stripped and handed to
      the JSON extractor, whose value is returned as it is. */
  function GenerateQuiz<J>(parse: string -> Option<J>, threadId: string, assistantId: Option<string>, o: RunOracle): (r: Exchange<J>)
    requires WellTimed(o)
    ensures r.calls == SubmitAndAwait(threadId, assistantId, QuizGenerationPrompt, QuizRunInstructions, QuizGenerationTimeout, o).calls
    ensures var ex := SubmitAndAwait(threadId, assistantId, QuizGenerationPrompt, QuizRunInstructions, QuizGenerationTimeout, o);
      && (ex.outcome.Failure? ==> r.outcome == Failure(ex.outcome.error))
      && (ex.outcome.Success? ==>
            && (r.outcome.Success? <==> ExtractFirstJsonArray(parse, QuizText(ex.outcome.value)).Success?)
            && (r.outcome.Success? ==> r.outcome.value == ExtractFirstJsonArray(parse, QuizText(ex.outcome.value)).value)
            && (r.outcome.Failure? ==> r.outcome.error == NotJson))
  {
    var ex := SubmitAndAwait(threadId, assistantId, QuizGenerationPrompt, QuizRunInstructions, QuizGenerationTimeout, o);
    match ex.outcome
    case Failure(e) => Exchange(ex.calls, Failure(e))
    case Success(m) =>
      var text := QuizText(m);
      match ExtractFirstJsonArray(parse, text)
      case Failure(_) => Exchange(ex.calls, Failure(NotJson))
      case Success(v) => Exchange(ex.calls, Success(v))
  }

  /** chat_with_assistant: the first content part of the reply, as text when it
      is a text part and as its `str` form otherwise; a reply with no parts raises. */
  function ChatWithAssistant(threadId: string, assistantId: Option<string>, message: string,
                             instructions: string, o: RunOracle): (r: Exchange<string>)
    requires WellTimed(o)
    ensures r.calls == SubmitAndAwait(threadId, assistantId, Given(message), Given(instructions), ChatResponseTimeout, o).calls
    ensures var ex := SubmitAndAwait(threadId, assistantId, Given(message), Given(instructions), ChatResponseTimeout, o);
      && (ex.outcome.Failure? ==> r.outcome == Failure(ex.outcome.error))
      && (ex.outcome.Success? && |ex.outcome.value.content| == 0 ==> r.outcome == Failure(NoContent))
      && (ex.outcome.Success? && |ex.outcome.value.content| > 0 ==>
            r.outcome.Success? &&
            match ex.outcome.value.content[0]
            case TextPart(v) => r.outcome.value == v
            case OtherPart(s) => r.outcome.value == s)
  {
    var ex := SubmitAndAwait(threadId, assistantId, Given(message), Given(instructions), ChatResponseTimeout, o);
    match ex.outcome
    case Failure(e) => Exchange(ex.calls, Failure(e))
    case Success(m) =>
      if |m.content| == 0 then Exchange(ex.calls, Failure(NoContent))
      else match m.content[0]
        case TextPart(v) => Exchange(ex.calls, Success(v))
        case OtherPart(s) => Exchange(ex.calls, Success(s))
  }

  /** The run of one exchange ends in the terminal status `s`, which is not
      "completed", within the given timeout. */
  predicate RunEndsIncomplete(o: RunOracle, timeout: int, s: string)
    requires WellTimed(o)
  {
    var w := WaitForRunCompletion(timeout, o.elapsed, o.status);
    w.Finished? && w.status == s && s != "completed"
  }

  /** generate_quiz raises with the run's status exactly when the message is
      accepted, the run starts, and the run ends in another terminal status than
      "completed" within the quiz timeout; one message and one run were made. */
  lemma QuizRunIncompleteFails<J>(parse: string -> Option<J>, threadId: string, assistantId: Option<string>,
                                  o: RunOracle, s: string)
    requires WellTimed(o)
    ensures var q := GenerateQuiz(parse, threadId, assistantId, o);
      q.outcome == Failure(NotCompleted(s)) <==>
        o.sendOk && o.runId.Some? && RunEndsIncomplete(o, QuizGenerationTimeout, s)
    ensures o.sendOk && o.runId.Some? && RunEndsIncomplete(o, QuizGenerationTimeout, s) ==>
      GenerateQuiz(parse, threadId, assistantId, o).calls
        == [SendMessage(threadId, QuizGenerationPrompt), StartRun(threadId, assistantId, QuizRunInstructions)]
  {
  }

  /** chat_with_assistant raises with the run's status exactly when the message
      is accepted, the run starts, and the run ends in another terminal status
      than "completed" within the chat timeout; one message and one run were made. */
  lemma ChatRunIncompleteFails(threadId: string, assistantId: Option<string>, message: string,
                               instructions: string, o: RunOracle, s: string)
    requires WellTimed(o)
    ensures var c := ChatWithAssistant(threadId, assistantId, message, instructions, o);
      c.outcome == Failure(NotCompleted(s)) <==>
        o.sendOk && o.runId.Some? && RunEndsIncomplete(o, ChatResponseTimeout, s)
    ensures o.sendOk && o.runId.Some? && RunEndsIncomplete(o, ChatResponseTimeout, s) ==>
      ChatWithAssistant(threadId, assistantId, message, instructions, o).calls
        == [SendMessage(threadId, Given(message)), StartRun(threadId, assistantId, Given(instructions))]
  {
  }

  /** End to end: when the reply's only text part is a `json`-fenced array, quiz
      generation succeeds with the value the array's own text decodes to. */
  lemma FencedReplyGivesQuiz<J>(parse: string -> Option<J>, threadId: string, assistantId: Option<string>,
                                o: RunOracle, pre: seq<ContentPart>, body: string, post: seq<ContentPart>, v: J)
    requires WellTimed(o)
    requires var ex := SubmitAndAwait(threadId, assistantId, QuizGenerationPrompt, QuizRunInstructions, QuizGenerationTimeout, o);
      ex.outcome.Success? && ex.outcome.value.content == pre + [TextPart(FencedBlock(body))] + post
    requires forall k :: 0 <= k < |pre| ==> pre[k].OtherPart?
    requires forall k :: 0 <= k < |post| ==> post[k].OtherPart?
    requires |body| >= 2 && body[0] == '[' && body[|body| - 1] == ']'
    requires parse(body) == Some(v)
    ensures GenerateQuiz(parse, threadId, assistantId, o).outcome == Success(v)
  {
    var ex := SubmitAndAwait(threadId, assistantId, QuizGenerationPrompt, QuizRunInstructions, QuizGenerationTimeout, o);
    SingleTextPart(ex.outcome.value, pre, FencedBlock(body), post);
    FencedBlockOpensWithFence(body);
    FencedArrayRoundTrip(parse, body, v);
  }

  // ---------------------------------------------------------------------------
  // Attaching files to a vector store.

  /** The ids actually attached, in order, and the one whose attach raised. */
  datatype Attachment = Attachment(attached: seq<string>, failed: Option<string>)

  /** attach_files_to_vector_store: attaches the ids in order and stops at the
      first attach that raises; `ok(k)` says whether the k-th attach succeeds. */
  function AttachFilesToVectorStore(fileIds: seq<string>, ok: nat -> bool): (r: Attachment)
    ensures |r.attached| <= |fileIds| && r.attached == fileIds[..|r.attached|]
    ensures forall k :: 0 <= k < |r.attached| ==> ok(k)
    ensures r.failed.None? <==> r.attached == fileIds
    ensures r.failed.Some? ==> r.failed == Some(fileIds[|r.attached|]) && !ok(|r.attached|)
  {
    AttachFrom(fileIds, ok, 0)
  }

  function AttachFrom(fileIds: seq<string>, ok: nat -> bool, k: nat): (r: Attachment)
    requires k <= |fileIds| && forall j :: 0 <= j < k ==> ok(j)
    ensures k <= |r.attached| <= |fileIds| && r.attached == fileIds[..|r.attached|]
    ensures forall j :: 0 <= j < |r.attached| ==> ok(j)
    ensures r.failed.None? <==> |r.attached| == |fileIds|
    ensures r.failed.Some? ==> r.failed == Some(fileIds[|r.attached|]) && !ok(|r.attached|)
    decreases |fileIds| - k
  {
    if k == |fileIds| then Attachment(fileIds, None)
    else if !ok(k) then Attachment(fileIds[..k], Some(fileIds[k]))
    else AttachFrom(fileIds, ok, k + 1)
  }

  /** When every attach succeeds, every id is attached. */
  lemma AllAttachedWhenAllSucceed(fileIds: seq<string>, ok: nat -> bool)
    requires forall k :: 0 <= k < |fileIds| ==> ok(k)
    ensures AttachFilesToVectorStore(fileIds, ok) == Attachment(fileIds, None)
  {
  }
}

=== FILE: config.dfy ===
/** The static configuration the orchestration layer reads once at start-up. */
module Config {

  /** Extensions (lower case, without the dot) a document may have. */
  const SupportedExts: set<string> :=
    {"pdf", "txt", "md", "docx", "pptx", "csv", "json", "html", "py", "java", "rb", "tex", "c", "cpp"}

  /** Largest accepted document, in MiB, compared against the size rounded to one decimal. */
  const MaxFileSizeMb: nat := 200

  /** Seconds the poller waits for a quiz run and for a chat run. */
  const QuizGenerationTimeout: int := 120
  const ChatResponseTimeout: int := 120

  const MiB: nat := 1024 * 1024
}

=== FILE: extract.dfy ===
/** Best-effort extraction of a JSON value from free-form model output
    (utils.extract_first_json_array). The JSON decoder itself is a parameter
    `parse`: a partial function that either yields a value or fails, exactly as
    `json.loads` either returns or raises. */
module Extract {
  import opened Wrappers
  import opened Text

  /** The ValueError raised when no attempt parses. */
  datatype ExtractError = Unparseable

  const Fence: string := "```"
  const JsonTag: string := "json\n"

  /** The characters `strip("`\n ")` removes around a fenced block. */
  predicate IsFenceChar(c: char) {
    c == '`' || c == '\n' || c == ' '
  }

  /** Fence removal: only text whose whitespace-stripped form opens with a fence is
      touched; it loses the fence characters at both ends and one leading `json` tag line. */
  function CleanFences(text: string): (r: string)
    ensures !StartsWith(Strip(text, IsSpace), Fence) ==> r == text
    ensures StartsWith(Strip(text, IsSpace), Fence) ==>
      r == [] || (!IsFenceChar(r[0]) && !IsFenceChar(r[|r| - 1]))
  {
    var stripped := Strip(text, IsSpace);
    if StartsWith(stripped, Fence) then
      var cleaned := Strip(stripped, IsFenceChar);
      var untagged := if StartsWith(cleaned, JsonTag) then cleaned[|JsonTag|..] else cleaned;
      Strip(untagged, IsFenceChar)
    else
      text
  }

  /** `r` is the slice `s[a..a + |r|]`; before it come fence characters up to `m`,
      then either more fence characters or one `json` tag line followed by fence
      characters, and after it fence characters only. */
  ghost predicate FenceCleaned(s: string, r: string, a: int, m: int) {
    && 0 <= m <= a && a + |r| <= |s| && r == s[a..a + |r|]
    && (forall k :: 0 <= k < m ==> IsFenceChar(s[k]))
    && (forall k :: a + |r| <= k < |s| ==> IsFenceChar(s[k]))
    && ((forall k :: m <= k < a ==> IsFenceChar(s[k]))
        || (&& m + |JsonTag| <= a && s[m..m + |JsonTag|] == JsonTag
            && forall k :: m + |JsonTag| <= k < a ==> IsFenceChar(s[k])))
  }

  /** What fence removal keeps of a fenced reply is a contiguous piece of the
      whitespace-stripped text, and all it drops is fence characters and at most
      one `json` tag line. */
  lemma CleanFencesSlice(text: string)
    ensures var s := Strip(text, IsSpace);
      StartsWith(s, Fence) ==> exists a, m :: FenceCleaned(s, CleanFences(text), a, m)
  {
    var s := Strip(text, IsSpace);
    if StartsWith(s, Fence) {
      var cleaned := Strip(s, IsFenceChar);
      var a1 :| SliceBetweenDropped(s, cleaned, a1, IsFenceChar);
      var tag := if StartsWith(cleaned, JsonTag) then |JsonTag| else 0;
      var untagged := if StartsWith(cleaned, JsonTag) then cleaned[|JsonTag|..] else cleaned;
      assert untagged == cleaned[tag..];
      var r := Strip(untagged, IsFenceChar);
      assert r == CleanFences(text);
      var a2 :| SliceBetweenDropped(cleaned[tag..], r, a2, IsFenceChar);
      SlicesCompose(s, cleaned, a1, tag, r, a2);
      assert FenceCleaned(s, r, a1 + tag + a2, a1);
    }
  }

  /** A fence-stripped slice of a fence-stripped slice, with an optional tag line
      cut from the front in between, is a slice that `FenceCleaned` describes. */
  lemma SlicesCompose(s: string, cleaned: string, a1: int, tag: int, r: string, a2: int)
    requires SliceBetweenDropped(s, cleaned, a1, IsFenceChar)
    requires tag == 0 || (tag == |JsonTag| && StartsWith(cleaned, JsonTag))
    requires SliceBetweenDropped(cleaned[tag..], r, a2, IsFenceChar)
    ensures FenceCleaned(s, r, a1 + tag + a2, a1)
  {
    var untagged := cleaned[tag..];
    var a := a1 + tag + a2;
    assert untagged == s[a1 + tag..a1 + |cleaned|];
    assert r == s[a..a + |r|] by {
      forall k | 0 <= k < |r|
        ensures r[k] == s[a + k]
      {
        assert r[k] == untagged[a2 + k];
      }
    }
    forall k | a + |r| <= k < |s|
      ensures IsFenceChar(s[k])
    {
      if k < a1 + |cleaned| {
        assert s[k] == untagged[k - a1 - tag];
      }
    }
    forall k | a1 + tag <= k < a
      ensures IsFenceChar(s[k])
    {
      assert s[k] == untagged[k - a1 - tag];
    }
    if tag > 0 {
      assert s[a1..a1 + |JsonTag|] == cleaned[..|JsonTag|];
      assert s[a1..a1 + |JsonTag|] == JsonTag;
    } else {
      assert forall k :: a1 <= k < a ==> IsFenceChar(s[k]);
    }
  }

  // ---------------------------------------------------------------------------
  // First candidate: the regular expression `\[.*\]` searched with DOTALL.

  /** `text[i..j + 1]` matches `\[.*\]` when `.` also matches newlines. */
  ghost predicate RegexMatchAt(text: string, i: int, j: int) {
    0 <= i < j < |text| && text[i] == '[' && text[j] == ']'
  }

  /** The match `re.search` reports: the leftmost start, and for it the longest
      (greedy) end. */
  ghost predicate SearchResult(text: string, i: int, j: int) {
    && RegexMatchAt(text, i, j)
    && forall i', j' :: RegexMatchAt(text, i', j') ==> i <= i' && (i' == i ==> j' <= j)
  }

  /** The greedy regular-expression candidate: present exactly when some `[` comes
      before some `]`, and then the span `re.search` returns. */
  function RegexCandidate(text: string): (r: Option<string>)
    ensures r.Some? <==> exists i, j :: RegexMatchAt(text, i, j)
    ensures r.Some? ==> exists i, j :: SearchResult(text, i, j) && r.value == text[i..j + 1]
  {
    match (FirstIndexOf(text, '['), LastIndexOf(text, ']'))
    case (Some(i), Some(j)) =>
      if i < j then
        assert SearchResult(text, i, j);
        Some(text[i..j + 1])
      else
        None
    case _ => None
  }

  // ---------------------------------------------------------------------------
  // Second candidate: the depth-counting scan.

  function Delta(c: char): int {
    if c == '[' then 1 else if c == ']' then -1 else 0
  }

  /** Square-bracket balance of `s`: openings minus closings. */
  function Net(s: string): int
    decreases |s|
  {
    if |s| == 0 then 0 else Net(s[..|s| - 1]) + Delta(s[|s| - 1])
  }

  /** `span` is one bracket group: it opens with `[`, stays open on every proper
      prefix, and is balanced exactly at its end. */
  ghost predicate IsGroup(span: string) {
    && |span| >= 2
    && span[0] == '['
    && Net(span) == 0
    && forall k :: 1 <= k < |span| ==> Net(span[..k]) > 0
  }

  /** `text[f..e + 1]` is a bracket group. */
  ghost predicate GroupAt(text: string, f: int, e: int) {
    0 <= f <= e < |text| && IsGroup(text[f..e + 1])
  }

  lemma NetSnoc(text: string, f: int, i: int)
    requires 0 <= f <= i < |text|
    ensures Net(text[f..i + 1]) == Net(text[f..i]) + Delta(text[i])
  {
    assert text[f..i + 1][..i - f] == text[f..i];
  }

  lemma NetStep(text: string, start: Option<nat>, i: int)
    requires 0 <= i < |text|
    requires start.Some? ==> start.value <= i
    ensures start.Some? ==> Net(text[start.value..i + 1]) == Net(text[start.value..i]) + Delta(text[i])
  {
    if start.Some? {
      NetSnoc(text, start.value, i);
    }
  }

  /** What the loop of the scan carries from one character to the next: before the
      first `[` the depth is 0 and nothing has started; afterwards the start is the
      first `[` and the depth is the balance since then, which has stayed positive. */
  ghost predicate ScanState(text: string, i: nat, depth: nat, start: Option<nat>) {
    && i <= |text|
    && match start
       case None => depth == 0 && forall k :: 0 <= k < i ==> text[k] != '['
       case Some(f) =>
         && FirstAt(text, '[', f) && f < i
         && depth == Net(text[f..i])
         && forall k :: f < k <= i ==> Net(text[f..k]) > 0
  }

  /** No bracket group that starts at the first `[` ends at `i`. */
  ghost predicate NoGroupEndsAt(text: string, i: int) {
    forall f :: FirstAt(text, '[', f) ==> !GroupAt(text, f, i)
  }

  /** The first `[`: the scan starts a group at depth 1. */
  lemma ScanOpens(text: string, i: nat, start: Option<nat>)
    requires ScanState(text, i, 0, start) && i < |text| && text[i] == '['
    ensures ScanState(text, i + 1, 1, Some(i)) && NoGroupEndsAt(text, i)
  {
    assert start.None?;
    assert text[i..i + 1][..0] == [];
  }

  /** A nested `[` deepens the group by one; the group stays open. */
  lemma ScanNests(text: string, i: nat, depth: nat, start: Option<nat>)
    requires ScanState(text, i, depth, start) && i < |text| && text[i] == '[' && depth > 0
    ensures ScanState(text, i + 1, depth + 1, start) && NoGroupEndsAt(text, i)
  {
    NetSnoc(text, start.value, i);
    forall f | FirstAt(text, '[', f)
      ensures !GroupAt(text, f, i)
    {
      FirstAtUnique(text, '[', f, start.value);
    }
  }

  /** A `]` inside a nested group closes one level; the outer group stays open. */
  lemma ScanUnnests(text: string, i: nat, depth: nat, start: Option<nat>)
    requires ScanState(text, i, depth, start) && i < |text| && text[i] == ']' && depth > 1
    ensures ScanState(text, i + 1, depth - 1, start) && NoGroupEndsAt(text, i)
  {
    NetSnoc(text, start.value, i);
    forall f | FirstAt(text, '[', f)
      ensures !GroupAt(text, f, i)
    {
      FirstAtUnique(text, '[', f, start.value);
    }
  }

  /** Any other character leaves the depth as it was: before the first `[` nothing
      has started, and afterwards the group stays open. */
  lemma ScanSkips(text: string, i: nat, depth: nat, start: Option<nat>)
    requires ScanState(text, i, depth, start) && i < |text|
    requires text[i] != '[' && !(text[i] == ']' && depth > 0)
    ensures ScanState(text, i + 1, depth, start) && NoGroupEndsAt(text, i)
  {
    NetStep(text, start, i);
    forall f | FirstAt(text, '[', f)
      ensures !GroupAt(text, f, i)
    {
      if start.Some? {
        FirstAtUnique(text, '[', f, start.value);
      }
    }
  }

  /** The `]` that brings the depth back to 0 ends the group begun at the first `[`. */
  lemma ScanCloses(text: string, i: nat, start: Option<nat>)
    requires ScanState(text, i, 1, start) && i < |text| && text[i] == ']'
    ensures start.Some? && FirstAt(text, '[', start.value) && GroupAt(text, start.value, i)
  {
    var f := start.value;
    NetSnoc(text, f, i);
    var span := text[f..i + 1];
    assert forall k :: 1 <= k < |span| ==> span[..k] == text[f..f + k];
  }

  /** The scan from position `i` on, one step per character; a `]` at depth 0 is
      skipped, and the scan stops at the first return to depth 0. */
  function ScanFrom(text: string, i: nat, depth: nat, start: Option<nat>): Option<string>
    requires ScanState(text, i, depth, start)
    decreases |text| - i
  {
    if i == |text| then
      None
    else if text[i] == '[' then
      if depth == 0 then
        ScanOpens(text, i, start);
        ScanFrom(text, i + 1, 1, Some(i))
      else
        ScanNests(text, i, depth, start);
        ScanFrom(text, i + 1, depth + 1, start)
    else if text[i] == ']' && depth > 0 then
      if depth == 1 then
        ScanCloses(text, i, start);
        Some(text[start.value..i + 1])
      else
        ScanUnnests(text, i, depth, start);
        ScanFrom(text, i + 1, depth - 1, start)
    else
      ScanSkips(text, i, depth, start);
      ScanFrom(text, i + 1, depth, start)
  }

  /** `r` is what a scan from `i` on should find: the group begun at the first `[`
      when that group closes at or after `i`, and nothing when it does not. */
  ghost predicate FoundFrom(text: string, i: nat, r: Option<string>) {
    && (r.Some? ==>
      exists f, e :: FirstAt(text, '[', f) && i <= e && GroupAt(text, f, e) && r.value == text[f..e + 1])
    && (r.None? ==>
      forall f, e :: FirstAt(text, '[', f) && i <= e ==> !GroupAt(text, f, e))
  }

  /** A step past a position where no group ends keeps what the rest of the scan finds. */
  lemma FoundFromStep(text: string, i: nat, r: Option<string>)
    requires i < |text| && NoGroupEndsAt(text, i) && FoundFrom(text, i + 1, r)
    ensures FoundFrom(text, i, r)
  {
  }

  /** The group that closes at `i` is what the scan should find from `i` on. */
  lemma ClosingFound(text: string, i: nat, start: Option<nat>)
    requires ScanState(text, i, 1, start) && i < |text| && text[i] == ']'
    ensures start.Some? && FoundFrom(text, i, Some(text[start.value..i + 1]))
  {
    ScanCloses(text, i, start);
  }

  /** Nothing is left to find at the end of the text. */
  lemma NothingFoundAtEnd(text: string)
    ensures FoundFrom(text, |text|, None)
  {
  }

  /** The scan finds what it should. */
  lemma {:induction false} ScanFromSpec(text: string, i: nat, depth: nat, start: Option<nat>)
    requires ScanState(text, i, depth, start)
    ensures FoundFrom(text, i, ScanFrom(text, i, depth, start))
    decreases |text| - i, 1
  {
    if i == |text| {
      NothingFoundAtEnd(text);
    } else if text[i] == '[' && depth == 0 {
      ScanSpecOpens(text, i, start);
    } else if text[i] == '[' {
      ScanSpecNests(text, i, depth, start);
    } else if text[i] == ']' && depth == 1 {
      ClosingFound(text, i, start);
    } else if text[i] == ']' && depth > 1 {
      ScanSpecUnnests(text, i, depth, start);
    } else {
      ScanSpecSkips(text, i, depth, start);
    }
  }

  lemma {:induction false} ScanSpecOpens(text: string, i: nat, start: Option<nat>)
    requires ScanState(text, i, 0, start) && i < |text| && text[i] == '['
    ensures FoundFrom(text, i, ScanFrom(text, i, 0, start))
    decreases |text| - i, 0
  {
    ScanOpens(text, i, start);
    ScanFromSpec(text, i + 1, 1, Some(i));
    FoundFromStep(text, i, ScanFrom(text, i + 1, 1, Some(i)));
  }

  lemma {:induction false} ScanSpecNests(text: string, i: nat, depth: nat, start: Option<nat>)
    requires ScanState(text, i, depth, start) && i < |text| && text[i] == '[' && depth > 0
    ensures FoundFrom(text, i, ScanFrom(text, i, depth, start))
    decreases |text| - i, 0
  {
    ScanNests(text, i, depth, start);
    ScanFromSpec(text, i + 1, depth + 1, start);
    FoundFromStep(text, i, ScanFrom(text, i + 1, depth + 1, start));
  }

  lemma {:induction false} ScanSpecUnnests(text: string, i: nat, depth: nat, start: Option<nat>)
    requires ScanState(text, i, depth, start) && i < |text| && text[i] == ']' && depth > 1
    ensures FoundFrom(text, i, ScanFrom(text, i, depth, start))
    decreases |text| - i, 0
  {
    ScanUnnests(text, i, depth, start);
    ScanFromSpec(text, i + 1, depth - 1, start);
    FoundFromStep(text, i, ScanFrom(text, i + 1, depth - 1, start));
  }

  lemma {:induction false} ScanSpecSkips(text: string, i: nat, depth: nat, start: Option<nat>)
    requires ScanState(text, i, depth, start) && i < |text|
    requires text[i] != '[' && !(text[i] == ']' && depth > 0)
    ensures FoundFrom(text, i, ScanFrom(text, i, depth, start))
    decreases |text| - i, 0
  {
    ScanSkips(text, i, depth, start);
    ScanFromSpec(text, i + 1, depth, start);
    FoundFromStep(text, i, ScanFrom(text, i + 1, depth, start));
  }

  /** The scan candidate: the bracket group that begins at the first `[`, if that
      group closes. */
  function ScanCandidate(text: string): (r: Option<string>)
    ensures r.Some? ==>
      exists f, e :: FirstAt(text, '[', f) && GroupAt(text, f, e) && r.value == text[f..e + 1]
    ensures r.None? ==>
      forall f, e :: FirstAt(text, '[', f) ==> !GroupAt(text, f, e)
  {
    ScanFromSpec(text, 0, 0, None);
    ScanFrom(text, 0, 0, None)
  }

  // ---------------------------------------------------------------------------
  // The cascade.

  /** The candidate list: the regular-expression span, then the scanned group. */
  function Candidates(text: string): seq<string> {
    (match RegexCandidate(text) case Some(c) => [c] case None => [])
    + (match ScanCandidate(text) case Some(c) => [c] case None => [])
  }

  /** Every string handed to the decoder, in order: the candidates of the cleaned
      text, then the cleaned text itself. */
  function Attempts(text: string): seq<string> {
    var cleaned := CleanFences(text);
    Candidates(cleaned) + [cleaned]
  }

  /** `attempts[k]` is the first attempt the decoder accepts. */
  ghost predicate FirstParsedAt<J>(parse: string -> Option<J>, attempts: seq<string>, k: int) {
    && 0 <= k < |attempts|
    && parse(attempts[k]).Some?
    && forall j :: 0 <= j < k ==> parse(attempts[j]).None?
  }

  /** A first success in the tail of a list whose head fails is a first success of the list. */
  lemma FirstParsedShift<J>(parse: string -> Option<J>, attempts: seq<string>, r: Result<J, ExtractError>)
    requires |attempts| > 0 && parse(attempts[0]).None?
    requires r.Success? ==> exists k :: FirstParsedAt(parse, attempts[1..], k) && parse(attempts[1..][k]) == Some(r.value)
    ensures r.Success? ==> exists k :: FirstParsedAt(parse, attempts, k) && parse(attempts[k]) == Some(r.value)
  {
    if r.Success? {
      var k :| FirstParsedAt(parse, attempts[1..], k) && parse(attempts[1..][k]) == Some(r.value);
      assert FirstParsedAt(parse, attempts, k + 1);
    }
  }

  /** Tries each attempt in turn and returns the first decoded value unchanged. */
  function FirstParse<J>(parse: string -> Option<J>, attempts: seq<string>): (r: Result<J, ExtractError>)
    ensures r.Success? <==> exists k :: 0 <= k < |attempts| && parse(attempts[k]).Some?
    ensures r.Success? ==> exists k :: FirstParsedAt(parse, attempts, k) && parse(attempts[k]) == Some(r.value)
    decreases |attempts|
  {
    if |attempts| == 0 then
      Failure(Unparseable)
    else
      match parse(attempts[0])
      case Some(v) =>
        assert FirstParsedAt(parse, attempts, 0);
        Success(v)
      case None =>
        var r := FirstParse(parse, attempts[1..]);
        FirstParsedShift(parse, attempts, r);
        r
  }

  /** utils.extract_first_json_array: the value of the first attempt that decodes,
      whatever its shape, or `Unparseable` when none does. */
  function ExtractFirstJsonArray<J>(parse: string -> Option<J>, text: string): (r: Result<J, ExtractError>)
    ensures r.Success? <==> exists k :: 0 <= k < |Attempts(text)| && parse(Attempts(text)[k]).Some?
    ensures r.Success? ==>
      exists k :: FirstParsedAt(parse, Attempts(text), k) && parse(Attempts(text)[k]) == Some(r.value)
    ensures r.Failure? ==> r.error == Unparseable
  {
    FirstParse(parse, Attempts(text))
  }

  // ---------------------------------------------------------------------------
  // Properties of the candidates and of the cascade.

  /** A group ends with `]`. */
  lemma GroupEndsWithClose(span: string)
    requires IsGroup(span)
    ensures span[|span| - 1] == ']'
  {
    assert span[..|span|] == span;
    assert Net(span) == Net(span[..|span| - 1]) + Delta(span[|span| - 1]);
  }

  /** Every proper prefix of a group is still open. */
  lemma GroupPrefixOpen(text: string, f: int, e: int, k: int)
    requires GroupAt(text, f, e) && f <= k < e
    ensures Net(text[f..k + 1]) > 0
  {
    assert text[f..e + 1][..k + 1 - f] == text[f..k + 1];
  }

  /** From a given `[`, at most one span is a group: the first return to depth 0. */
  lemma GroupUnique(text: string, f: int, e1: int, e2: int)
    requires GroupAt(text, f, e1) && GroupAt(text, f, e2)
    ensures e1 == e2
  {
    if e1 < e2 {
      GroupPrefixOpen(text, f, e2, e1);
      assert false;
    } else if e2 < e1 {
      GroupPrefixOpen(text, f, e1, e2);
      assert false;
    }
  }

  /** Both candidates start at the first `[`; the scanned group, when there is one,
      is a prefix of the regular-expression span, so a regex candidate always exists
      alongside it. */
  lemma ScanWithinRegex(text: string)
    requires ScanCandidate(text).Some?
    ensures RegexCandidate(text).Some?
    ensures ScanCandidate(text).value <= RegexCandidate(text).value
  {
    var f, e :| FirstAt(text, '[', f) && GroupAt(text, f, e) && ScanCandidate(text).value == text[f..e + 1];
    GroupEndsWithClose(text[f..e + 1]);
    assert text[f..e + 1][e - f] == text[e];
    assert RegexMatchAt(text, f, e);
    assert RegexCandidate(text).Some?;
    var i, j :| SearchResult(text, i, j) && RegexCandidate(text).value == text[i..j + 1];
    assert i == f;
    assert e <= j;
    assert text[f..e + 1] == text[i..j + 1][..e + 1 - f];
  }

  /** When the regular-expression span is itself a single group, the scan finds the
      same span, so both candidates coincide. */
  lemma RegexGroupAgrees(text: string)
    requires RegexCandidate(text).Some? && IsGroup(RegexCandidate(text).value)
    ensures ScanCandidate(text) == RegexCandidate(text)
  {
    var i, j :| SearchResult(text, i, j) && RegexCandidate(text).value == text[i..j + 1];
    assert FirstAt(text, '[', i);
    GroupAtFirstIsScanned(text, i, j);
  }

  /** A group that starts at the first `[` is the scan candidate. */
  lemma GroupAtFirstIsScanned(text: string, f: int, e: int)
    requires FirstAt(text, '[', f) && GroupAt(text, f, e)
    ensures ScanCandidate(text) == Some(text[f..e + 1])
  {
    var f', e' :| FirstAt(text, '[', f') && GroupAt(text, f', e') && ScanCandidate(text).value == text[f'..e' + 1];
    FirstAtUnique(text, '[', f, f');
    GroupUnique(text, f, e', e);
  }

  /** A text with no `[` yields no candidate, so only the whole text is tried. */
  lemma NoBracketNoCandidate(text: string)
    requires forall k :: 0 <= k < |text| ==> text[k] != '['
    ensures Candidates(text) == []
  {
  }

  /** The first attempt decodes: its value is the result. */
  lemma FirstAttemptWins<J>(parse: string -> Option<J>, text: string, v: J)
    requires |Attempts(text)| > 0 && parse(Attempts(text)[0]) == Some(v)
    ensures ExtractFirstJsonArray(parse, text) == Success(v)
  {
  }

  /** The whole fenced block: fence, `json` tag line, body, newline, fence. */
  function FencedBlock(body: string): string {
    Fence + JsonTag + body + "\n" + Fence
  }

  lemma {:induction false} FencedBlockOpensWithFence(body: string)
    ensures Strip(FencedBlock(body), IsSpace) == FencedBlock(body)
    ensures StartsWith(FencedBlock(body), Fence)
  {
    var text := FencedBlock(body);
    assert text[0] == '`' && text[|text| - 1] == '`';
    StripKeeps(text, IsSpace);
    assert text[..3] == Fence;
  }

  lemma {:induction false} FencedBlockTrimStart(body: string)
    ensures TrimStart(FencedBlock(body), IsFenceChar) == JsonTag + body + "\n" + Fence
  {
    var rest := JsonTag + body + "\n" + Fence;
    assert FencedBlock(body) == Fence + rest;
    TrimStartDropped(Fence, rest, IsFenceChar);
    assert rest[0] == 'j';
  }

  lemma {:induction false} FencedBlockTrimEnd(body: string)
    requires |body| >= 1 && !IsFenceChar(body[|body| - 1])
    ensures TrimEnd(JsonTag + body + "\n" + Fence, IsFenceChar) == JsonTag + body
  {
    var inner := JsonTag + body;
    TrimEndDropped(inner + "\n", Fence, IsFenceChar);
    TrimEndDropped(inner, "\n", IsFenceChar);
    assert !IsFenceChar(inner[|inner| - 1]) by { assert inner[|inner| - 1] == body[|body| - 1]; }
  }

  lemma {:induction false} FencedBlockTrimmed(body: string)
    requires |body| >= 1 && !IsFenceChar(body[|body| - 1])
    ensures Strip(FencedBlock(body), IsFenceChar) == JsonTag + body
  {
    FencedBlockTrimStart(body);
    FencedBlockTrimEnd(body);
  }

  /** Fence removal on a fenced block tagged `json` gives the body back. */
  lemma {:induction false} CleanFencedBlock(body: string)
    requires |body| >= 1 && !IsFenceChar(body[0]) && !IsFenceChar(body[|body| - 1])
    ensures CleanFences(FencedBlock(body)) == body
  {
    FencedBlockOpensWithFence(body);
    FencedBlockTrimmed(body);
    var inner := JsonTag + body;
    assert StartsWith(inner, JsonTag) by { assert inner[..|JsonTag|] == JsonTag; }
    assert inner[|JsonTag|..] == body;
    StripKeeps(body, IsFenceChar);
  }

  /** Fence removal drops one `json` tag line whatever fence characters surround
      it: an opening run of fence characters that starts with a fence, the tag, a
      body and a closing run of fence characters give back the body. */
  lemma {:induction false} CleanTaggedFence(pre: string, body: string, post: string)
    requires StartsWith(pre, Fence) && forall k :: 0 <= k < |pre| ==> IsFenceChar(pre[k])
    requires forall k :: 0 <= k < |post| ==> IsFenceChar(post[k])
    requires |body| >= 1 && !IsFenceChar(body[0]) && !IsFenceChar(body[|body| - 1])
    requires !IsSpace(body[|body| - 1])
    ensures CleanFences(pre + JsonTag + body + post) == body
  {
    var inner := JsonTag + body;
    assert inner[|inner| - 1] == body[|body| - 1];
    var tail := TaggedFenceSpaceStripped(pre, inner, post);
    assert pre + JsonTag + body + post == pre + inner + post;
    var s := Strip(pre + inner + post, IsSpace);
    assert StartsWith(s, Fence) by { assert s[..|Fence|] == pre[..|Fence|]; }
    FenceRunsStripped(pre, inner, tail);
    assert StartsWith(inner, JsonTag) by { assert inner[..|JsonTag|] == JsonTag; }
    assert inner[|JsonTag|..] == body;
    StripKeeps(body, IsFenceChar);
  }

  /** Whitespace stripping of a tagged fenced text only shortens its closing run. */
  lemma TaggedFenceSpaceStripped(pre: string, inner: string, post: string) returns (tail: string)
    requires |pre| >= 1 && pre[0] == '`'
    requires |inner| >= 1 && !IsSpace(inner[|inner| - 1])
    requires forall k :: 0 <= k < |post| ==> IsFenceChar(post[k])
    ensures Strip(pre + inner + post, IsSpace) == pre + inner + tail
    ensures forall k :: 0 <= k < |tail| ==> IsFenceChar(tail[k])
  {
    var text := pre + inner + post;
    var q := |pre| + |inner|;
    assert text[0] == pre[0];
    assert text[q - 1] == inner[|inner| - 1];
    StripFromEndOnly(text, q, IsSpace);
    var s := Strip(text, IsSpace);
    tail := post[..|s| - q];
    assert text[..|s|] == pre + inner + tail;
  }

  /** Runs of fence characters on both sides of a text with clean ends are exactly
      what fence stripping removes. */
  lemma FenceRunsStripped(pre: string, inner: string, tail: string)
    requires forall k :: 0 <= k < |pre| ==> IsFenceChar(pre[k])
    requires forall k :: 0 <= k < |tail| ==> IsFenceChar(tail[k])
    requires |inner| >= 1 && !IsFenceChar(inner[0]) && !IsFenceChar(inner[|inner| - 1])
    ensures Strip(pre + inner + tail, IsFenceChar) == inner
  {
    assert pre + inner + tail == pre + (inner + tail);
    TrimStartDropped(pre, inner + tail, IsFenceChar);
    assert (inner + tail)[0] == inner[0];
    TrimEndDropped(inner, tail, IsFenceChar);
  }

  /** A space between fence and tag, and no newline before the closing fence: the
      tag is still dropped. */
  lemma SpacedTagDropped()
    ensures CleanFences("``` " + JsonTag + "ab" + Fence) == "ab"
  {
    var pre := "``` ";
    assert StartsWith(pre, Fence) by { assert pre[..|Fence|] == Fence; }
    CleanTaggedFence(pre, "ab", Fence);
  }

  /** A text that opens with `[` and closes with `]` is its own regex candidate. */
  lemma WholeTextIsRegexCandidate(text: string)
    requires |text| >= 2 && text[0] == '[' && text[|text| - 1] == ']'
    ensures RegexCandidate(text) == Some(text)
  {
    assert RegexMatchAt(text, 0, |text| - 1);
    assert RegexCandidate(text).Some?;
    var i, j :| SearchResult(text, i, j) && RegexCandidate(text).value == text[i..j + 1];
    assert text[i..j + 1] == text;
  }

  /** Round trip through a fence: an array written inside a fenced block tagged
      `json` is extracted as exactly the value its own text decodes to. */
  lemma {:induction false} FencedArrayRoundTrip<J>(parse: string -> Option<J>, body: string, v: J)
    requires |body| >= 2 && body[0] == '[' && body[|body| - 1] == ']'
    requires parse(body) == Some(v)
    ensures ExtractFirstJsonArray(parse, FencedBlock(body)) == Success(v)
  {
    var text := FencedBlock(body);
    CleanFencedBlock(body);
    WholeTextIsRegexCandidate(body);
    assert Attempts(text)[0] == body;
    FirstAttemptWins(parse, text, v);
  }

  /** With no `[` before the array text and no `]` after it, the regex candidate
      is exactly the array text. */
  lemma RegexFindsArray(pre: string, arr: string, post: string)
    requires forall k :: 0 <= k < |pre| ==> pre[k] != '['
    requires forall k :: 0 <= k < |post| ==> post[k] != ']'
    requires |arr| >= 2 && arr[0] == '[' && arr[|arr| - 1] == ']'
    ensures RegexCandidate(pre + arr + post) == Some(arr)
  {
    var text := pre + arr + post;
    var i0, j0 := |pre|, |pre| + |arr| - 1;
    assert text[i0] == arr[0] && text[j0] == arr[|arr| - 1];
    assert RegexMatchAt(text, i0, j0);
    assert RegexCandidate(text).Some?;
    var i, j :| SearchResult(text, i, j) && RegexCandidate(text).value == text[i..j + 1];
    assert text[i..j + 1] == arr;
  }

  /** Prose around an array: with no `[` before it and no `]` after it, and no
      leading fence, the extraction yields the value of the array text. */
  lemma {:induction false} ProseAroundArray<J>(parse: string -> Option<J>, pre: string, arr: string, post: string, v: J)
    requires forall k :: 0 <= k < |pre| ==> pre[k] != '['
    requires forall k :: 0 <= k < |post| ==> post[k] != ']'
    requires |arr| >= 2 && arr[0] == '[' && arr[|arr| - 1] == ']'
    requires !StartsWith(Strip(pre + arr + post, IsSpace), Fence)
    requires parse(arr) == Some(v)
    ensures ExtractFirstJsonArray(parse, pre + arr + post) == Success(v)
  {
    var text := pre + arr + post;
    assert CleanFences(text) == text;
    RegexFindsArray(pre, arr, post);
    assert Attempts(text)[0] == arr;
    FirstAttemptWins(parse, text, v);
  }

  /** A typical reply: prose, then a fenced array, then
      more prose; the array is found although the fence is not at the start. */
  lemma {:induction false} ToleratesProseAndFence<J>(parse: string -> Option<J>, v: J)
    requires parse(ExampleArray) == Some(v)
    ensures ExtractFirstJsonArray(parse, ExamplePre + ExampleArray + ExamplePost) == Success(v)
  {
    ExamplePieces();
    var text := ExamplePre + ExampleArray + ExamplePost;
    assert text[0] == 'S' && text[|text| - 1] == '!';
    StripKeeps(text, IsSpace);
    assert !StartsWith(text, Fence) by { assert text[..3] != Fence by { assert text[0] != Fence[0]; } }
    ProseAroundArray(parse, ExamplePre, ExampleArray, ExamplePost, v);
  }

  const ExamplePre: string := "Sure! Here you go:\n```json\n"
  const ExampleArray: string := "[" + ExampleItem + "]"
  const ExampleItem: string := "{\"question\":\"Q\",\"options\":[\"a\",\"b\",\"c\",\"d\"],\"correct\":\"a\"}"
  const ExamplePost: string := "\n```\nHope that helps!"

  lemma ExamplePieces()
    ensures forall k :: 0 <= k < |ExamplePre| ==> ExamplePre[k] != '['
    ensures forall k :: 0 <= k < |ExamplePost| ==> ExamplePost[k] != ']'
    ensures |ExampleArray| >= 2
    ensures ExampleArray[0] == '['
    ensures ExampleArray[|ExampleArray| - 1] == ']'
  {
  }

  /** A text with neither a bracket nor a backtick is attempted only as a whole:
      no fence is cleaned away and no candidate is found. */
  lemma PlainTextAttempts(text: string)
    requires forall k :: 0 <= k < |text| ==> text[k] != '[' && text[k] != '`'
    ensures Attempts(text) == [text]
  {
    var stripped := Strip(text, IsSpace);
    var a :| SliceBetweenDropped(text, stripped, a, IsSpace);
    if |stripped| >= |Fence| {
      assert stripped[..|Fence|][0] == text[a] != Fence[0];
    }
    NoBracketNoCandidate(text);
  }

  /** Such a text is decoded whole: the extraction succeeds exactly when the decoder
      accepts the text itself, and fails with `Unparseable` otherwise. */
  lemma PlainTextDecodedWhole<J>(parse: string -> Option<J>, text: string)
    requires forall k :: 0 <= k < |text| ==> text[k] != '[' && text[k] != '`'
    ensures ExtractFirstJsonArray(parse, text) ==
      match parse(text)
      case Some(v) => Success(v)
      case None => Failure(Unparseable)
  {
    PlainTextAttempts(text);
    assert Attempts(text)[0] == text;
  }

  /** Failure: "no json here" is decoded only as a whole, and when that fails the
      extraction fails. */
  lemma NoJsonHere<J>(parse: string -> Option<J>)
    requires parse("no json here").None?
    ensures ExtractFirstJsonArray(parse, "no json here") == Failure(Unparseable)
  {
    PlainTextDecodedWhole(parse, "no json here");
  }
}

=== FILE: filechecks.dfy ===
/** Admission checks on an uploaded document: the extension allow-list and the
    size ceiling. */
module FileChecks {
  import opened Wrappers
  import opened Text
  import opened Config

  /** The final path component, as `pathlib` reads it: everything after the last `/`.
      Its characterisation is the lemma `BaseNameSpec`, kept apart so that the
      callers of `Extension` do not carry it. */
  function BaseName(path: string): string {
    match LastIndexOf(path, '/')
    case None => path
    case Some(i) => path[i + 1..]
  }

  /** The final component is a suffix of the path holding no `/`, preceded by a
      `/` whenever it is not the whole path. */
  lemma BaseNameSpec(path: string)
    ensures var r := BaseName(path);
      |r| <= |path| && r == path[|path| - |r|..]
      && (forall k :: 0 <= k < |r| ==> r[k] != '/')
      && (|r| < |path| ==> path[|path| - |r| - 1] == '/')
  {
  }

  /** `name` has a suffix: its last dot is neither its first nor its last character. */
  ghost predicate HasSuffixDot(name: string, i: int) {
    LastAt(name, '.', i) && 0 < i < |name| - 1
  }

  /** Position of the dot that starts the suffix of `base`, if it has one. */
  function SuffixDot(base: string): Option<nat> {
    match LastIndexOf(base, '.')
    case Some(i) => if 0 < i < |base| - 1 then Some(i) else None
    case None => None
  }

  /** `SuffixDot` finds the suffix dot exactly when there is one. */
  lemma SuffixDotSpec(base: string)
    ensures SuffixDot(base).Some? ==> HasSuffixDot(base, SuffixDot(base).value)
    ensures SuffixDot(base).None? ==> forall i :: !HasSuffixDot(base, i)
  {
    match LastIndexOf(base, '.')
    case Some(i) => LastAtUnique(base, '.', i);
    case None =>
  }

  lemma LastAtUnique(s: string, c: char, i: int)
    requires LastAt(s, c, i)
    ensures forall j :: LastAt(s, c, j) ==> j == i
  {
  }

  /** The lower-cased text after the suffix dot of a final path component, or ""
      when the component has no suffix. */
  function ComponentExtension(base: string): string {
    match SuffixDot(base)
    case Some(i) => Lower(base[i + 1..])
    case None => []
  }

  /** The extension is empty exactly when the component has no suffix dot, and
      otherwise is the lower-cased text after that dot. */
  lemma ComponentExtensionSpec(base: string)
    ensures ComponentExtension(base) == [] <==> forall i :: !HasSuffixDot(base, i)
    ensures forall i :: HasSuffixDot(base, i) ==> ComponentExtension(base) == Lower(base[i + 1..])
  {
    SuffixDotSpec(base);
    match SuffixDot(base)
    case Some(i) => LastAtUnique(base, '.', i);
    case None =>
  }

  /** `Path(name).suffix.lower().lstrip(".")`. */
  function Extension(path: string): string {
    ComponentExtension(BaseName(path))
  }

  /** utils.validate_file_type: the extension is one of `supported`. */
  predicate ValidateFileType(name: string, supported: set<string>) {
    Extension(name) in supported
  }

  /** Lower-casing a name keeps every `/` and `.` where it was. */
  lemma LowerKeepsLastIndex(s: string, c: char)
    requires c == '/' || c == '.'
    ensures LastIndexOf(Lower(s), c) == LastIndexOf(s, c)
  {
    var t := Lower(s);
    assert forall k :: 0 <= k < |s| ==> (t[k] == c <==> s[k] == c);
    match LastIndexOf(s, c)
    case None =>
    case Some(i) =>
      assert LastAt(t, c, i);
  }

  /** The extension check ignores case: two names equal up to ASCII case are
      accepted or refused together. */
  lemma {:induction false} ValidateIgnoresCase(name1: string, name2: string, supported: set<string>)
    requires Lower(name1) == Lower(name2)
    ensures ValidateFileType(name1, supported) == ValidateFileType(name2, supported)
  {
    ExtensionOfLower(name1);
    ExtensionOfLower(name2);
  }

  /** The extension of a name equals the extension of its lower-cased form. */
  lemma ExtensionOfLower(name: string)
    ensures Extension(Lower(name)) == Extension(name)
  {
    BaseNameOfLower(name);
    ComponentExtensionOfLower(BaseName(name));
  }

  lemma BaseNameOfLower(name: string)
    ensures BaseName(Lower(name)) == Lower(BaseName(name))
  {
    LowerKeepsLastIndex(name, '/');
    match LastIndexOf(name, '/')
    case None =>
    case Some(i) =>
      assert Lower(name)[i + 1..] == Lower(name[i + 1..]);
  }

  lemma LowerIdempotent(s: string)
    ensures Lower(Lower(s)) == Lower(s)
  {
  }

  lemma ComponentExtensionOfLower(base: string)
    ensures ComponentExtension(Lower(base)) == ComponentExtension(base)
  {
    LowerKeepsLastIndex(base, '.');
    var lbase := Lower(base);
    assert |lbase| == |base|;
    assert SuffixDot(lbase) == SuffixDot(base);
    match SuffixDot(base)
    case None =>
    case Some(i) =>
      var tail := base[i + 1..];
      assert lbase[i + 1..] == Lower(tail);
      LowerIdempotent(tail);
  }

  /** A name from the allow-list is accepted whatever its case. */
  lemma UpperCaseAccepted()
    ensures ValidateFileType("Notes.PDF", SupportedExts)
  {
    var name := "Notes.PDF";
    assert forall k :: 0 <= k < |name| ==> name[k] != '/';
    assert forall k :: 0 <= k < |name| && k != 5 ==> name[k] != '.';
    LastAtUnique(name, '.', 5);
    assert LastIndexOf(name, '.') == Some(5);
    assert Lower(name[6..]) == "pdf";
  }

  /** Only the text after the last dot counts. */
  lemma LastSuffixOnly()
    ensures Extension("archive.tar.gz") == "gz"
    ensures !ValidateFileType("archive.tar.gz", SupportedExts)
  {
    var name := "archive.tar.gz";
    assert LastIndexOf(name, '/') == None;
    assert LastIndexOf(name, '.') == Some(11);
    assert Lower(name[12..]) == "gz";
  }

  /** The two orders of the same suffixes tell "last suffix" apart from "any
      suffix": only the one ending in a supported suffix is accepted. */
  lemma InnerSuffixIgnored()
    ensures Extension("notes.gz.pdf") == "pdf"
    ensures ValidateFileType("notes.gz.pdf", SupportedExts)
    ensures !ValidateFileType("notes.pdf.gz", SupportedExts)
  {
    var accepted := "notes.gz.pdf";
    assert forall k :: 0 <= k < |accepted| ==> accepted[k] != '/';
    assert LastAt(accepted, '.', 8);
    LastAtUnique(accepted, '.', 8);
    assert Lower(accepted[9..]) == "pdf";
    var refused := "notes.pdf.gz";
    assert forall k :: 0 <= k < |refused| ==> refused[k] != '/';
    assert LastAt(refused, '.', 9);
    LastAtUnique(refused, '.', 9);
    assert Lower(refused[10..]) == "gz";
  }

  /** A dot that starts the name (a hidden file) is not a suffix. */
  lemma HiddenFileHasNoExtension()
    ensures !ValidateFileType(".pdf", SupportedExts)
  {
    var name := ".pdf";
    assert forall k :: 0 <= k < |name| ==> name[k] != '/';
    assert forall k :: 0 < k < |name| ==> name[k] != '.';
    LastAtUnique(name, '.', 0);
    assert LastIndexOf(name, '.') == Some(0);
  }

  /** `round(size / MiB, 1) > MaxFileSizeMb`, written in integers: the rounded size
      exceeds the ceiling exactly when `size / MiB >= MaxFileSizeMb + 0.05`, and no
      byte count lands on that boundary, so the rounding direction of a tie never matters. */
  predicate TooLarge(sizeBytes: nat) {
    20 * sizeBytes > (20 * MaxFileSizeMb + 1) * MiB
  }

  /** With a 200 MiB ceiling, the first refused size is 209,767,629 bytes
      (200.05 MiB is 209,767,628.8 bytes). */
  lemma TooLargeThreshold(sizeBytes: nat)
    ensures TooLarge(sizeBytes) <==> sizeBytes >= 209767629
    ensures sizeBytes <= MaxFileSizeMb * MiB ==> !TooLarge(sizeBytes)
  {
  }
}

=== FILE: registry.dfy ===
/** The file registry (file_manager.FileManager): the documents the user has
    added, in upload order, and the ids of the remote vector store and assistant
    built from them. */
module Registry {
  import opened Wrappers
  import opened Config
  import opened FileChecks

  /** One tracked document. `fileId` is "" until the remote upload succeeds;
      the size is kept in bytes (the source keeps the rounded MiB figure). */
  datatype UploadedFile = UploadedFile(
    originalName: string,
    tempPath: string,
    fileId: string,
    sizeBytes: nat,
    fileType: string,
    uploadTime: real)

  datatype FileManager = FileManager(
    files: seq<UploadedFile>,
    vectorStoreId: Option<string>,
    assistantId: Option<string>)

  /** A fresh registry: no files, no ids. */
  const Initial: FileManager := FileManager([], None, None)

  /** Python truthiness of an optional id: present and non-empty. */
  predicate Truthy(id: Option<string>) {
    id.Some? && id.value != ""
  }

  /** `i` is the first record carrying `name`. */
  ghost predicate FirstNamedAt(files: seq<UploadedFile>, name: string, i: int) {
    && 0 <= i < |files|
    && files[i].originalName == name
    && forall k :: 0 <= k < i ==> files[k].originalName != name
  }

  /** The position of the first record named `name`: the scan every lookup,
      removal and update performs. */
  function FindByName(files: seq<UploadedFile>, name: string): (r: Option<nat>)
    ensures r.None? <==> forall k :: 0 <= k < |files| ==> files[k].originalName != name
    ensures r.Some? ==> FirstNamedAt(files, name, r.value)
  {
    if |files| == 0 then None
    else if files[0].originalName == name then Some(0)
    else match FindByName(files[1..], name)
      case None => None
      case Some(j) => Some(j + 1)
  }

  lemma FirstNamedUnique(files: seq<UploadedFile>, name: string, i: int, j: int)
    requires FirstNamedAt(files, name, i) && FirstNamedAt(files, name, j)
    ensures i == j
  {
  }

  /** get_file_by_name: the first record with that name, if any. */
  function GetFileByName(fm: FileManager, name: string): (r: Option<UploadedFile>)
    ensures r.None? <==> forall k :: 0 <= k < |fm.files| ==> fm.files[k].originalName != name
    ensures r.Some? ==> exists i :: FirstNamedAt(fm.files, name, i) && r.value == fm.files[i]
  {
    match FindByName(fm.files, name)
    case None => None
    case Some(i) => Some(fm.files[i])
  }

  /** No record carries `name`. */
  predicate NameAbsent(files: seq<UploadedFile>, name: string) {
    forall k :: 0 <= k < |files| ==> files[k].originalName != name
  }

  /** has_file_with_name: `any` over the records. */
  predicate HasFileWithName(fm: FileManager, name: string) {
    !NameAbsent(fm.files, name)
  }

  /** The membership test and the lookup agree. */
  lemma HasIffFound(fm: FileManager, name: string)
    ensures HasFileWithName(fm, name) <==> GetFileByName(fm, name).Some?
    ensures GetFileByName(fm, name).Some? ==> GetFileByName(fm, name).value.originalName == name
  {
  }

  /** has_files. */
  predicate HasFiles(fm: FileManager) {
    |fm.files| > 0
  }

  /** Why add_file refused a document. */
  datatype AddError = UnsupportedType(name: string) | FileTooLarge(name: string)

  /** The registry after a successful add, and the record it appended. */
  datatype Added = Added(manager: FileManager, record: UploadedFile)

  /** add_file: the extension is checked first, then the size; a document that
      passes is appended as a new record with no remote id. Nothing checks for a
      record of the same name. The temporary path and the clock reading are inputs. */
  function AddFile(fm: FileManager, name: string, sizeBytes: nat, tempPath: string, now: real): (r: Result<Added, AddError>)
    ensures !ValidateFileType(name, SupportedExts) ==> r == Failure(UnsupportedType(name))
    ensures ValidateFileType(name, SupportedExts) && TooLarge(sizeBytes) ==> r == Failure(FileTooLarge(name))
    ensures r.Success? <==> ValidateFileType(name, SupportedExts) && !TooLarge(sizeBytes)
    ensures r.Success? ==>
      && r.value.manager.files == fm.files + [r.value.record]
      && r.value.manager.vectorStoreId == fm.vectorStoreId
      && r.value.manager.assistantId == fm.assistantId
      && r.value.record.originalName == name
      && r.value.record.fileId == ""
      && r.value.record.fileType == Extension(name)
      && r.value.record.sizeBytes == sizeBytes
  {
    if !ValidateFileType(name, SupportedExts) then
      Failure(UnsupportedType(name))
    else if TooLarge(sizeBytes) then
      Failure(FileTooLarge(name))
    else
      var record := UploadedFile(name, tempPath, "", sizeBytes, Extension(name), now);
      Success(Added(fm.(files := fm.files + [record]), record))
  }

  datatype Outcome = Outcome(manager: FileManager, found: bool)

  /** remove_file: drops the first record with that name. */
  function RemoveFile(fm: FileManager, name: string): (r: Outcome)
    ensures r.found <==> HasFileWithName(fm, name)
    ensures !r.found ==> r.manager == fm
    ensures r.found ==> exists i :: FirstNamedAt(fm.files, name, i) && r.manager.files == fm.files[..i] + fm.files[i + 1..]
    ensures r.manager.vectorStoreId == fm.vectorStoreId && r.manager.assistantId == fm.assistantId
  {
    HasIffFound(fm, name);
    match FindByName(fm.files, name)
    case None => Outcome(fm, false)
    case Some(i) => Outcome(fm.(files := fm.files[..i] + fm.files[i + 1..]), true)
  }

  /** update_file_id: sets the remote id of the first record with that name. */
  function UpdateFileId(fm: FileManager, name: string, fileId: string): (r: Outcome)
    ensures r.found <==> HasFileWithName(fm, name)
    ensures |r.manager.files| == |fm.files|
    ensures forall k :: 0 <= k < |fm.files| ==>
      r.manager.files[k] == if FirstNamedAt(fm.files, name, k) then fm.files[k].(fileId := fileId) else fm.files[k]
    ensures r.manager.vectorStoreId == fm.vectorStoreId && r.manager.assistantId == fm.assistantId
  {
    HasIffFound(fm, name);
    match FindByName(fm.files, name)
    case None => Outcome(fm, false)
    case Some(i) =>
      forall k | 0 <= k < |fm.files| && FirstNamedAt(fm.files, name, k)
        ensures k == i
      {
        FirstNamedUnique(fm.files, name, i, k);
      }
      Outcome(fm.(files := fm.files[i := fm.files[i].(fileId := fileId)]), true)
  }

  /** The non-empty remote ids of `files`, in order. */
  function FileIds(files: seq<UploadedFile>): (r: seq<string>)
    ensures |r| <= |files|
    ensures forall j :: 0 <= j < |r| ==> r[j] != ""
  {
    if |files| == 0 then []
    else if files[0].fileId != "" then [files[0].fileId] + FileIds(files[1..])
    else FileIds(files[1..])
  }

  /** An id is listed exactly when it is the non-empty id of some record. */
  lemma {:induction false} FileIdsMembers(files: seq<UploadedFile>, id: string)
    ensures id in FileIds(files) <==> id != "" && exists k :: 0 <= k < |files| && files[k].fileId == id
  {
    if |files| > 0 {
      FileIdsMembers(files[1..], id);
      assert forall k :: 1 <= k < |files| ==> files[k] == files[1..][k - 1];
      if id != "" && files[0].fileId != id && exists k :: 0 <= k < |files| && files[k].fileId == id {
        var k :| 0 <= k < |files| && files[k].fileId == id;
        assert files[1..][k - 1].fileId == id;
      }
    }
  }

  /** get_all_file_ids. */
  function GetAllFileIds(fm: FileManager): seq<string> {
    FileIds(fm.files)
  }

  /** The id list of consecutive runs of records is the concatenation of theirs:
      ids appear in record order. */
  lemma {:induction false} FileIdsAppend(a: seq<UploadedFile>, b: seq<UploadedFile>)
    ensures FileIds(a + b) == FileIds(a) + FileIds(b)
  {
    if |a| > 0 {
      assert (a + b)[1..] == a[1..] + b;
      FileIdsAppend(a[1..], b);
    } else {
      assert a + b == b;
    }
  }

  /** needs_vector_store_update. With no files, the remote state is stale if
      either id is still held; with files, a vector store must exist. A missing
      assistant id alone does not count. */
  function NeedsVectorStoreUpdate(fm: FileManager): (r: bool)
    ensures !HasFiles(fm) ==> (r <==> Truthy(fm.vectorStoreId) || Truthy(fm.assistantId))
    ensures HasFiles(fm) ==> (r <==> !Truthy(fm.vectorStoreId))
  {
    if |fm.files| == 0 then Truthy(fm.vectorStoreId) || Truthy(fm.assistantId)
    else !Truthy(fm.vectorStoreId)
  }

  /** clear_vector_store_info: forgets both ids, keeps the files. */
  function ClearVectorStoreInfo(fm: FileManager): (r: FileManager)
    ensures r.files == fm.files && r.vectorStoreId.None? && r.assistantId.None?
  {
    FileManager(fm.files, None, None)
  }

  /** A call the removal makes on the remote side. */
  datatype RemoteCall = Detach(vectorStoreId: string, fileId: string) | DeleteRemote(fileId: string)

  /** What the remote part of a removal did: whether the record was found, and
      the calls it made in order. */
  datatype RemoteRemoval = RemoteRemoval(found: bool, calls: seq<RemoteCall>)

  /** remove_file_from_openai. The client's detach and delete report failure by
      returning false (openai_client.py), so their outcome, given by `succeeds`,
      is read by no one; the registry itself is never changed. */
  function RemoveFileFromOpenai(fm: FileManager, name: string, succeeds: RemoteCall -> bool): (r: RemoteRemoval)
    ensures r.found <==> HasFileWithName(fm, name)
    ensures !r.found ==> r.calls == []
    ensures r.found ==> var f := GetFileByName(fm, name).value;
      && (Detach(fm.vectorStoreId.GetOr(""), f.fileId) in r.calls <==> Truthy(fm.vectorStoreId) && f.fileId != "")
      && (DeleteRemote(f.fileId) in r.calls <==> f.fileId != "")
      && (forall c :: c in r.calls ==> c.fileId == f.fileId)
      && (|r.calls| == 2 ==> r.calls[0].Detach?)
      && |r.calls| == (if Truthy(fm.vectorStoreId) && f.fileId != "" then 1 else 0) + (if f.fileId != "" then 1 else 0)
  {
    HasIffFound(fm, name);
    match GetFileByName(fm, name)
    case None => RemoteRemoval(false, [])
    case Some(f) =>
      var detach := if Truthy(fm.vectorStoreId) && f.fileId != "" then [Detach(fm.vectorStoreId.value, f.fileId)] else [];
      var delete := if f.fileId != "" then [DeleteRemote(f.fileId)] else [];
      RemoteRemoval(true, detach + delete)
  }

  /** What remove_file_completely did: the registry afterwards, its answer, and
      the remote calls made on the way. */
  datatype Removal = Removal(manager: FileManager, removed: bool, calls: seq<RemoteCall>)

  /** remove_file_completely: the remote part runs only when a client is given;
      the answer is the local removal's alone. */
  function RemoveFileCompletely(fm: FileManager, name: string, hasClient: bool, succeeds: RemoteCall -> bool): (r: Removal)
    ensures r.removed <==> HasFileWithName(fm, name)
    ensures r.manager == RemoveFile(fm, name).manager
    ensures !hasClient ==> r.calls == []
    ensures hasClient ==> r.calls == RemoveFileFromOpenai(fm, name, succeeds).calls
  {
    var calls := if hasClient then RemoveFileFromOpenai(fm, name, succeeds).calls else [];
    var local := RemoveFile(fm, name);
    Removal(local.manager, local.found, calls)
  }

  /** Whatever the remote side answers, the removal's result is the same. */
  lemma RemovalIgnoresRemoteOutcome(fm: FileManager, name: string, hasClient: bool, s1: RemoteCall -> bool, s2: RemoteCall -> bool)
    ensures RemoveFileCompletely(fm, name, hasClient, s1) == RemoveFileCompletely(fm, name, hasClient, s2)
  {
  }

  /** The records' names are pairwise distinct. */
  ghost predicate DistinctNames(files: seq<UploadedFile>) {
    forall i, j :: 0 <= i < j < |files| ==> files[i].originalName != files[j].originalName
  }

  /** Names in the registry are pairwise distinct. */
  ghost predicate UniqueNames(fm: FileManager) {
    DistinctNames(fm.files)
  }

  /** Appending a record under a new name keeps names distinct. */
  lemma DistinctAppend(files: seq<UploadedFile>, rec: UploadedFile)
    requires DistinctNames(files)
    requires NameAbsent(files, rec.originalName)
    ensures DistinctNames(files + [rec])
  {
  }

  /** Deleting one record keeps names distinct, and its name is then gone. */
  lemma DistinctDelete(files: seq<UploadedFile>, i: int)
    requires DistinctNames(files) && 0 <= i < |files|
    ensures DistinctNames(files[..i] + files[i + 1..])
    ensures NameAbsent(files[..i] + files[i + 1..], files[i].originalName)
  {
    var rest := files[..i] + files[i + 1..];
    assert forall k :: 0 <= k < |rest| ==> rest[k] == files[if k < i then k else k + 1];
  }

  /** A record appended under a name no earlier record has is the first with that name. */
  lemma {:induction false} FindAppended(files: seq<UploadedFile>, rec: UploadedFile)
    requires NameAbsent(files, rec.originalName)
    ensures FindByName(files + [rec], rec.originalName) == Some(|files|)
  {
    var r := FindByName(files + [rec], rec.originalName);
    assert (files + [rec])[|files|].originalName == rec.originalName;
    assert r.Some?;
  }

  /** Adding a document under a new name and removing it again gives back the
      registry it started from. */
  lemma {:induction false} RemoveUndoesAdd(fm: FileManager, name: string, sizeBytes: nat, tempPath: string, now: real)
    requires !HasFileWithName(fm, name)
    requires AddFile(fm, name, sizeBytes, tempPath, now).Success?
    ensures var after := AddFile(fm, name, sizeBytes, tempPath, now).value.manager;
      RemoveFile(after, name) == Outcome(fm, true)
  {
    var added := AddFile(fm, name, sizeBytes, tempPath, now).value;
    FindAppended(fm.files, added.record);
    var files := fm.files + [added.record];
    assert files[..|fm.files|] + files[|fm.files| + 1..] == fm.files;
  }

  /** A new record has no remote id, so adding leaves the id list as it was. */
  lemma AddKeepsFileIds(fm: FileManager, name: string, sizeBytes: nat, tempPath: string, now: real)
    requires AddFile(fm, name, sizeBytes, tempPath, now).Success?
    ensures GetAllFileIds(AddFile(fm, name, sizeBytes, tempPath, now).value.manager) == GetAllFileIds(fm)
  {
    var added := AddFile(fm, name, sizeBytes, tempPath, now).value;
    FileIdsAppend(fm.files, [added.record]);
  }

  /** Recording the same id twice is the same as recording it once. */
  lemma UpdateFileIdIdempotent(fm: FileManager, name: string, fileId: string)
    ensures var once := UpdateFileId(fm, name, fileId);
      UpdateFileId(once.manager, name, fileId) == once
  {
    var once := UpdateFileId(fm, name, fileId);
    var twice := UpdateFileId(once.manager, name, fileId);
    assert forall k :: 0 <= k < |fm.files| ==> once.manager.files[k].originalName == fm.files[k].originalName;
    assert forall k :: FirstNamedAt(once.manager.files, name, k) <==> FirstNamedAt(fm.files, name, k);
    assert twice.manager.files == once.manager.files;
    HasIffFound(fm, name);
    HasIffFound(once.manager, name);
  }

  /** After an upload's id is recorded on a record that had none, the id list
      gains exactly that id, at the record's place. */
  lemma UpdateFileIdExtendsIds(fm: FileManager, name: string, fileId: string, i: nat)
    requires FirstNamedAt(fm.files, name, i) && fm.files[i].fileId == "" && fileId != ""
    ensures GetAllFileIds(UpdateFileId(fm, name, fileId).manager)
      == FileIds(fm.files[..i]) + [fileId] + FileIds(fm.files[i + 1..])
    ensures GetAllFileIds(fm) == FileIds(fm.files[..i]) + FileIds(fm.files[i + 1..])
  {
    UpdatedAt(fm, name, fileId, i);
    FileIdsAround(fm.files, i, fm.files[i].(fileId := fileId));
    FileIdsWithout(fm.files, i);
  }

  /** A record without an id contributes nothing to the id list. */
  lemma FileIdsWithout(files: seq<UploadedFile>, i: nat)
    requires i < |files| && files[i].fileId == ""
    ensures FileIds(files) == FileIds(files[..i]) + FileIds(files[i + 1..])
  {
    var pre, post := files[..i], files[i + 1..];
    assert files == pre + [files[i]] + post;
    FileIdsSplice(pre, files[i], post);
    assert FileIds(pre) + [] == FileIds(pre);
  }

  /** The id list of a sequence with its record at `i` set to `x`. */
  lemma FileIdsAround(files: seq<UploadedFile>, i: nat, x: UploadedFile)
    requires i < |files|
    ensures FileIds(files[..i] + [x] + files[i + 1..])
      == FileIds(files[..i]) + (if x.fileId == "" then [] else [x.fileId]) + FileIds(files[i + 1..])
  {
    FileIdsSplice(files[..i], x, files[i + 1..]);
  }

  /** The update replaces the first record with the name, in place. */
  lemma UpdatedAt(fm: FileManager, name: string, fileId: string, i: nat)
    requires FirstNamedAt(fm.files, name, i)
    ensures UpdateFileId(fm, name, fileId).manager.files
      == fm.files[..i] + [fm.files[i].(fileId := fileId)] + fm.files[i + 1..]
  {
    FirstNamedUnique(fm.files, name, i, FindByName(fm.files, name).value);
  }

  lemma {:induction false} FileIdsSplice(pre: seq<UploadedFile>, x: UploadedFile, post: seq<UploadedFile>)
    ensures FileIds(pre + [x] + post) == FileIds(pre) + (if x.fileId == "" then [] else [x.fileId]) + FileIds(post)
  {
    FileIdsAppend(pre + [x], post);
    FileIdsAppend(pre, [x]);
    assert [x][1..] == [];
  }

  /** Removing a record keeps names distinct, and with distinct names the removed
      name is gone afterwards. */
  lemma RemoveKeepsUnique(fm: FileManager, name: string)
    requires UniqueNames(fm)
    ensures UniqueNames(RemoveFile(fm, name).manager)
    ensures !HasFileWithName(RemoveFile(fm, name).manager, name)
  {
    HasIffFound(fm, name);
    match FindByName(fm.files, name)
    case None =>
    case Some(i) =>
      var rest := fm.files[..i] + fm.files[i + 1..];
      assert RemoveFile(fm, name).manager.files == rest;
      DistinctDelete(fm.files, i);
  }

  /** Once the ids are cleared, an update is needed exactly when files remain. */
  lemma ClearedNeedsUpdateIffFiles(fm: FileManager)
    ensures NeedsVectorStoreUpdate(ClearVectorStoreInfo(fm)) <==> HasFiles(fm)
    ensures ClearVectorStoreInfo(ClearVectorStoreInfo(fm)) == ClearVectorStoreInfo(fm)
  {
  }
}

=== FILE: session.dfy ===
/** The session controller (main.py): the state one browser session keeps, and
    each handler as a step from one state to the next. Remote answers are oracle
    inputs; rendering is not modelled. */
module Session {
  import opened Wrappers
  import opened Config
  import opened FileChecks
  import opened Registry
  import opened Client

  // ---------------------------------------------------------------------------
  // Upload handling.

  /** One file the uploader hands over, with the remote side's answers for it:
      the id the upload returns (`None` when it raises) and whether attaching
      that id to the vector store succeeds. */
  datatype Incoming = Incoming(
    name: string,
    sizeBytes: nat,
    tempPath: string,
    uploadTime: real,
    uploadedId: Option<string>,
    attachOk: bool)

  /** The notice the sidebar shows for one file. */
  datatype UploadReport = Skipped | Refused(error: AddError) | UploadFailed | AttachFailed | Uploaded

  /** An attach of an uploaded id to the recorded vector store. */
  datatype VectorAttach = VectorAttach(vectorStoreId: string, fileId: string)

  datatype Step = Step(manager: FileManager, report: UploadReport, attaches: seq<VectorAttach>)

  /** Updating the id of a record appended under a fresh name touches that record only. */
  lemma UpdateAppended(fm: FileManager, rec: UploadedFile, fileId: string)
    requires NameAbsent(fm.files, rec.originalName)
    ensures var r := UpdateFileId(fm.(files := fm.files + [rec]), rec.originalName, fileId);
      r.found && r.manager == fm.(files := fm.files + [rec.(fileId := fileId)])
  {
    FindAppended(fm.files, rec);
  }

  /** The file passes the type and size checks. */
  predicate Admissible(f: Incoming) {
    ValidateFileType(f.name, SupportedExts) && !TooLarge(f.sizeBytes)
  }

  /** The file is new to the registry and passes the type and size checks. */
  predicate Admitted(fm: FileManager, f: Incoming) {
    NameAbsent(fm.files, f.name) && Admissible(f)
  }

  /** The record an admitted file ends up as: its remote id, if the upload returned one. */
  function Tracked(f: Incoming): UploadedFile {
    UploadedFile(f.name, f.tempPath, f.uploadedId.GetOr(""), f.sizeBytes, Extension(f.name), f.uploadTime)
  }

  /** The body of the loop in handle_file_upload for one file. */
  function UploadOne(fm: FileManager, f: Incoming): (r: Step)
    ensures !Admitted(fm, f) ==> r.manager == fm && r.attaches == []
    ensures Admitted(fm, f) ==> r.manager == fm.(files := fm.files + [Tracked(f)])
    ensures r.report == Skipped <==> HasFileWithName(fm, f.name)
    ensures r.report == Uploaded <==>
      Admitted(fm, f) && f.uploadedId.Some? && (!Truthy(fm.vectorStoreId) || f.attachOk)
    ensures r.report.Refused? <==> !HasFileWithName(fm, f.name) && !Admitted(fm, f)
    ensures r.report == UploadFailed <==> Admitted(fm, f) && f.uploadedId.None?
    ensures r.attaches != [] <==> Admitted(fm, f) && f.uploadedId.Some? && Truthy(fm.vectorStoreId)
    ensures r.attaches != [] ==> r.attaches == [VectorAttach(fm.vectorStoreId.value, f.uploadedId.value)]
    ensures r.report == AttachFailed <==> r.attaches != [] && !f.attachOk
  {
    if HasFileWithName(fm, f.name) then Step(fm, Skipped, [])
    else match AddFile(fm, f.name, f.sizeBytes, f.tempPath, f.uploadTime)
      case Failure(e) => Step(fm, Refused(e), [])
      case Success(added) =>
        match f.uploadedId
        case None => Step(added.manager, UploadFailed, [])
        case Some(id) =>
          UpdateAppended(fm, added.record, id);
          var updated := UpdateFileId(added.manager, added.record.originalName, id).manager;
          if Truthy(updated.vectorStoreId) then
            Step(updated, if f.attachOk then Uploaded else AttachFailed, [VectorAttach(updated.vectorStoreId.value, id)])
          else
            Step(updated, Uploaded, [])
  }

  /** What handle_file_upload did: the registry afterwards, one notice per file,
      and the attaches it made. */
  datatype UploadRun = UploadRun(manager: FileManager, reports: seq<UploadReport>, attaches: seq<VectorAttach>)

  /** handle_file_upload: each file in turn; one file's failure does not stop the next. */
  function HandleFileUpload(fm: FileManager, files: seq<Incoming>): (r: UploadRun)
    ensures |r.reports| == |files|
    ensures r.manager.vectorStoreId == fm.vectorStoreId && r.manager.assistantId == fm.assistantId
    ensures |fm.files| <= |r.manager.files| <= |fm.files| + |files| && r.manager.files[..|fm.files|] == fm.files
    ensures forall a :: a in r.attaches ==> Truthy(fm.vectorStoreId) && a.vectorStoreId == fm.vectorStoreId.value
    decreases |files|
  {
    if |files| == 0 then UploadRun(fm, [], [])
    else
      var step := UploadOne(fm, files[0]);
      var rest := HandleFileUpload(step.manager, files[1..]);
      assert rest.manager.files[..|fm.files|] == step.manager.files[..|fm.files|];
      UploadRun(rest.manager, [step.report] + rest.reports, step.attaches + rest.attaches)
  }

  /** The batch is its first file's step followed by the rest of the batch. */
  lemma HandleStep(fm: FileManager, files: seq<Incoming>)
    requires |files| > 0
    ensures HandleFileUpload(fm, files).manager == HandleFileUpload(UploadOne(fm, files[0]).manager, files[1..]).manager
  {
  }

  /** A record present before an upload batch is still present after it. */
  lemma PresentStaysPresent(fm: FileManager, files: seq<Incoming>, name: string)
    requires HasFileWithName(fm, name)
    ensures HasFileWithName(HandleFileUpload(fm, files).manager, name)
  {
    var after := HandleFileUpload(fm, files).manager;
    var k :| 0 <= k < |fm.files| && fm.files[k].originalName == name;
    assert after.files[..|fm.files|] == fm.files;
    assert after.files[k] == fm.files[k];
  }

  /** One admissible file is tracked after its step. */
  lemma UploadOneTracks(fm: FileManager, f: Incoming)
    requires Admissible(f)
    ensures HasFileWithName(UploadOne(fm, f).manager, f.name)
  {
    var after := UploadOne(fm, f).manager;
    if NameAbsent(fm.files, f.name) {
      assert after.files[|fm.files|].originalName == f.name;
    }
  }

  /** Whatever the registry, the step for `f` leaves a record named `f.name`. */
  ghost predicate StepTracks(f: Incoming) {
    forall m :: HasFileWithName(UploadOne(m, f).manager, f.name)
  }

  /** A file whose step always tracks it is tracked after any batch holding it. */
  lemma {:induction false} TrackedAfterBatch(fm: FileManager, files: seq<Incoming>, k: int)
    requires 0 <= k < |files| && StepTracks(files[k])
    ensures HasFileWithName(HandleFileUpload(fm, files).manager, files[k].name)
    decreases |files|
  {
    var next := UploadOne(fm, files[0]).manager;
    HandleStep(fm, files);
    if k == 0 {
      PresentStaysPresent(next, files[1..], files[0].name);
    } else {
      var rest := files[1..];
      assert rest[k - 1] == files[k];
      TrackedAfterBatch(next, rest, k - 1);
    }
  }

  /** Every file in the batch whose type and size are admissible is tracked
      afterwards: either it was already, or it was added, whatever the remote
      upload and attach did. */
  lemma UploadAdmits(fm: FileManager, files: seq<Incoming>, k: int)
    requires 0 <= k < |files|
    requires Admissible(files[k])
    ensures HasFileWithName(HandleFileUpload(fm, files).manager, files[k].name)
  {
    forall m: FileManager
      ensures HasFileWithName(UploadOne(m, files[k]).manager, files[k].name)
    {
      UploadOneTracks(m, files[k]);
    }
    TrackedAfterBatch(fm, files, k);
  }

  /** One step keeps names distinct: it adds a record only under a name not yet tracked. */
  lemma UploadOneKeepsNamesUnique(fm: FileManager, f: Incoming)
    requires UniqueNames(fm)
    ensures UniqueNames(UploadOne(fm, f).manager)
  {
    if Admitted(fm, f) {
      DistinctAppend(fm.files, Tracked(f));
    }
  }

  /** Upload de-duplication: a registry whose names are distinct stays so. */
  lemma {:induction false} UploadKeepsNamesUnique(fm: FileManager, files: seq<Incoming>)
    requires UniqueNames(fm)
    ensures UniqueNames(HandleFileUpload(fm, files).manager)
    decreases |files|
  {
    if |files| > 0 {
      var next := UploadOne(fm, files[0]).manager;
      HandleStep(fm, files);
      UploadOneKeepsNamesUnique(fm, files[0]);
      UploadKeepsNamesUnique(next, files[1..]);
    }
  }

  // ---------------------------------------------------------------------------
  // Vector store and assistant setup.

  /** The remote answers setup needs: the new vector store's id (`None` when
      creating it raises), the outcome of each attach, and the new assistant's id. */
  datatype SetupOracle = SetupOracle(vectorStore: Option<string>, attachOk: nat -> bool, assistant: Option<string>)

  datatype SetupCall = CreateVectorStore | AttachFiles(vectorStoreId: string, attached: seq<string>) | CreateAssistant(vectorStoreId: string)

  datatype SetupNotice = NothingToDo | AssistantReady | SetupFailed

  datatype SetupRun = SetupRun(manager: FileManager, calls: seq<SetupCall>, notice: SetupNotice)

  /** Both remote ids are held. */
  predicate IsSetUp(fm: FileManager) {
    Truthy(fm.vectorStoreId) && Truthy(fm.assistantId)
  }

  /** All current file ids get attached (trivially so when there are none). */
  predicate AttachesAll(fm: FileManager, o: SetupOracle) {
    GetAllFileIds(fm) == [] || AttachFilesToVectorStore(GetAllFileIds(fm), o.attachOk).failed.None?
  }

  /** setup_vector_store_and_assistant. The vector store's id is recorded as soon
      as it exists, before files are attached and before the assistant is created;
      the assistant id only when that creation succeeds. */
  function SetupVectorStoreAndAssistant(fm: FileManager, o: SetupOracle): (r: SetupRun)
    ensures r.manager.files == fm.files
    ensures !HasFiles(fm) || IsSetUp(fm) ==> r == SetupRun(fm, [], NothingToDo)
    ensures HasFiles(fm) && !IsSetUp(fm) ==> |r.calls| >= 1 && r.calls[0] == CreateVectorStore && r.notice != NothingToDo
    ensures HasFiles(fm) && !IsSetUp(fm) && o.vectorStore.None? ==> r == SetupRun(fm, [CreateVectorStore], SetupFailed)
    ensures HasFiles(fm) && !IsSetUp(fm) && o.vectorStore.Some? ==> r.manager.vectorStoreId == o.vectorStore
    ensures r.notice == AssistantReady <==>
      HasFiles(fm) && !IsSetUp(fm) && o.vectorStore.Some? && AttachesAll(fm, o) && o.assistant.Some?
    ensures r.notice == AssistantReady ==> r.manager.assistantId == o.assistant
    ensures r.notice != AssistantReady ==> r.manager.assistantId == fm.assistantId
    ensures forall c :: c in r.calls && !c.CreateVectorStore? ==> c.vectorStoreId == o.vectorStore.value
  {
    if !HasFiles(fm) || IsSetUp(fm) then SetupRun(fm, [], NothingToDo)
    else match o.vectorStore
      case None => SetupRun(fm, [CreateVectorStore], SetupFailed)
      case Some(vs) =>
        var withStore := fm.(vectorStoreId := Some(vs));
        var ids := GetAllFileIds(withStore);
        var attachCalls := if ids == [] then [] else [AttachFiles(vs, AttachFilesToVectorStore(ids, o.attachOk).attached)];
        if ids != [] && AttachFilesToVectorStore(ids, o.attachOk).failed.Some? then
          SetupRun(withStore, [CreateVectorStore] + attachCalls, SetupFailed)
        else
          var calls := [CreateVectorStore] + attachCalls + [CreateAssistant(vs)];
          match o.assistant
          case None => SetupRun(withStore, calls, SetupFailed)
          case Some(a) => SetupRun(withStore.(assistantId := Some(a)), calls, AssistantReady)
  }

  /** Once setup succeeds with non-empty ids, running it again does nothing. */
  lemma SetupThenIdle(fm: FileManager, o: SetupOracle, o2: SetupOracle)
    requires SetupVectorStoreAndAssistant(fm, o).notice == AssistantReady
    requires o.vectorStore.value != "" && o.assistant.value != ""
    ensures var after := SetupVectorStoreAndAssistant(fm, o).manager;
      SetupVectorStoreAndAssistant(after, o2) == SetupRun(after, [], NothingToDo)
  {
  }

  /** When the assistant cannot be created, the new vector store's id stays
      recorded with no assistant, and the next setup creates another vector
      store and records that one instead. */
  lemma FailedAssistantRecreatesStore(fm: FileManager, o: SetupOracle, o2: SetupOracle)
    requires HasFiles(fm) && !Truthy(fm.assistantId)
    requires o.vectorStore.Some? && o.assistant.None?
    requires o2.vectorStore.Some?
    ensures var first := SetupVectorStoreAndAssistant(fm, o);
      && first.manager.vectorStoreId == o.vectorStore
      && first.manager.assistantId == fm.assistantId
      && first.notice == SetupFailed
      && var second := SetupVectorStoreAndAssistant(first.manager, o2);
         second.calls[0] == CreateVectorStore && second.manager.vectorStoreId == o2.vectorStore
  {
  }

  // ---------------------------------------------------------------------------
  // The session record.

  /** One entry of the chat history. */
  datatype ChatMessage = ChatMessage(role: string, content: string)

  /** The per-session state; `J` is whatever the JSON decoder yields. */
  datatype Session<J> = Session(
    registry: FileManager,
    startChat: bool,
    threadId: Option<string>,
    quizData: Option<J>,
    messages: seq<ChatMessage>,
    quizThreadId: Option<string>,
    lastUploaderState: set<string>,
    uploaderVersion: nat)

  /** The state a new session starts in. */
  function InitialSession<J>(): Session<J> {
    Session(Initial, false, None, None, [], None, {}, 0)
  }

  /** The reset taken when no files remain but remote ids are still held: the
      ids are forgotten, chat and quiz state emptied, and the uploader given a
      new key. Otherwise nothing changes. */
  function ResetOnEmpty<J>(s: Session<J>): (r: Session<J>)
    ensures HasFiles(s.registry) || !NeedsVectorStoreUpdate(s.registry) ==> r == s
    ensures !HasFiles(s.registry) && NeedsVectorStoreUpdate(s.registry) ==>
      && r.registry == ClearVectorStoreInfo(s.registry)
      && !r.startChat && r.messages == [] && r.quizData.None? && r.quizThreadId.None?
      && r.uploaderVersion == s.uploaderVersion + 1
      && r.threadId == s.threadId && r.lastUploaderState == s.lastUploaderState
  {
    if !HasFiles(s.registry) && NeedsVectorStoreUpdate(s.registry) then
      s.(registry := ClearVectorStoreInfo(s.registry), startChat := false, messages := [],
         quizData := None, quizThreadId := None, uploaderVersion := s.uploaderVersion + 1)
    else
      s
  }

  /** The step of every script run at main.py:228-237: set up when there are
      files, otherwise reset if remote ids are still held. */
  function SyncRegistry<J>(s: Session<J>, o: SetupOracle): (r: Session<J>)
    ensures r.registry.files == s.registry.files
    // No files: afterwards no remote id is held and no update is pending; a
    // session already in that state is left as it is.
    ensures !HasFiles(s.registry) ==>
      && !NeedsVectorStoreUpdate(r.registry)
      && !Truthy(r.registry.vectorStoreId) && !Truthy(r.registry.assistantId)
      && (r == s <==> !NeedsVectorStoreUpdate(s.registry))
    ensures !HasFiles(s.registry) && NeedsVectorStoreUpdate(s.registry) ==>
      && !r.startChat && r.messages == [] && r.quizData.None? && r.quizThreadId.None?
      && r.uploaderVersion == s.uploaderVersion + 1
    // Files present: only the registry may change, and only when it is not set up.
    ensures HasFiles(s.registry) ==> r.(registry := s.registry) == s
    ensures HasFiles(s.registry) && IsSetUp(s.registry) ==> r == s
    ensures HasFiles(s.registry) && !IsSetUp(s.registry) && o.vectorStore.None? ==> r == s
    ensures HasFiles(s.registry) && !IsSetUp(s.registry) && Truthy(o.vectorStore) ==>
      r.registry.vectorStoreId == o.vectorStore && !NeedsVectorStoreUpdate(r.registry)
    ensures HasFiles(s.registry) && !IsSetUp(s.registry) && Truthy(o.vectorStore)
            && AttachesAll(s.registry, o) && Truthy(o.assistant) ==>
      IsSetUp(r.registry) && r.registry.assistantId == o.assistant
  {
    if HasFiles(s.registry) then s.(registry := SetupVectorStoreAndAssistant(s.registry, o).manager)
    else ResetOnEmpty(s)
  }

  /** With no files, after one sync neither remote id is held, and a second sync
      changes nothing. */
  lemma {:induction false} SyncSettlesWhenEmpty<J>(s: Session<J>, o: SetupOracle, o2: SetupOracle)
    requires !HasFiles(s.registry)
    ensures var once := SyncRegistry(s, o);
      && !Truthy(once.registry.vectorStoreId) && !Truthy(once.registry.assistantId)
      && SyncRegistry(once, o2) == once
  {
    var once := SyncRegistry(s, o);
    assert !HasFiles(once.registry);
    assert !NeedsVectorStoreUpdate(once.registry);
  }

  // ---------------------------------------------------------------------------
  // Quiz generation.

  datatype QuizNotice = NoFilesWarning | QuizReady | QuizFailed

  /** What the quiz handler did: the new state, its notice, whether it created a
      quiz thread, and the calls of the exchange. */
  datatype QuizRun<J> = QuizRun(session: Session<J>, notice: QuizNotice, createdThread: bool, calls: seq<Call>)

  /** generate_quiz in main.py. `newThread` is the id a thread creation returns
      (`None` when it raises). An existing quiz thread is reused; the chat thread
      is never touched; the quiz is replaced only when generation succeeds. */
  function GenerateQuizHandler<J>(parse: string -> Option<J>, s: Session<J>, newThread: Option<string>, o: RunOracle): (r: QuizRun<J>)
    requires WellTimed(o)
    ensures !HasFiles(s.registry) ==> r == QuizRun(s, NoFilesWarning, false, [])
    ensures r.createdThread <==> HasFiles(s.registry) && !Truthy(s.quizThreadId)
    ensures r.createdThread && newThread.None? ==> r == QuizRun(s, QuizFailed, true, [])
    ensures r.createdThread && newThread.Some? ==> r.session.quizThreadId == newThread
    ensures !r.createdThread ==> r.session.quizThreadId == s.quizThreadId
    ensures HasFiles(s.registry) && Truthy(s.quizThreadId) ==>
      |r.calls| >= 1 && r.calls[0] == SendMessage(s.quizThreadId.value, QuizGenerationPrompt)
    ensures r.session.registry == s.registry && r.session.threadId == s.threadId && r.session.messages == s.messages
    ensures r.session.startChat == s.startChat && r.session.uploaderVersion == s.uploaderVersion
    ensures r.notice != QuizReady ==> r.session.quizData == s.quizData
    ensures r.notice == QuizReady ==>
      var thread := if r.createdThread then newThread.value else s.quizThreadId.value;
      var q := GenerateQuiz(parse, thread, s.registry.assistantId, o);
      q.outcome.Success? && r.session.quizData == Some(q.outcome.value)
  {
    if !HasFiles(s.registry) then QuizRun(s, NoFilesWarning, false, [])
    else
      var created := !Truthy(s.quizThreadId);
      var thread: Option<string> := if created then newThread else s.quizThreadId;
      match thread
      case None => QuizRun(s, QuizFailed, true, [])
      case Some(t) =>
        var s1 := s.(quizThreadId := thread);
        var q := GenerateQuiz(parse, t, s.registry.assistantId, o);
        match q.outcome
        case Failure(_) => QuizRun(s1, QuizFailed, created, q.calls)
        case Success(v) => QuizRun(s1.(quizData := Some(v)), QuizReady, created, q.calls)
  }

  /** A second quiz request goes to the thread the first one created. */
  lemma QuizThreadReused<J>(parse: string -> Option<J>, s: Session<J>, t: string, o1: RunOracle,
                            newThread2: Option<string>, o2: RunOracle)
    requires WellTimed(o1) && WellTimed(o2)
    requires HasFiles(s.registry) && !Truthy(s.quizThreadId) && t != ""
    ensures var first := GenerateQuizHandler(parse, s, Some(t), o1);
      var second := GenerateQuizHandler(parse, first.session, newThread2, o2);
      first.createdThread && !second.createdThread && second.session.quizThreadId == Some(t)
      && |second.calls| >= 1 && second.calls[0] == SendMessage(t, QuizGenerationPrompt)
  {
  }

  // ---------------------------------------------------------------------------
  // Starting a chat.

  datatype ChatNotice = ChatRefused | ChatStarted | ChatStartFailed

  datatype ChatStart<J> = ChatStart(session: Session<J>, notice: ChatNotice)

  /** start_chat in main.py. `newThread` is the id a thread creation returns
      (`None` when it raises). The chat flag is set before the thread is created,
      so it stays set when creation fails; the quiz thread is never touched. */
  function StartChat<J>(s: Session<J>, newThread: Option<string>): (r: ChatStart<J>)
    ensures !HasFiles(s.registry) ==> r == ChatStart(s, ChatRefused)
    ensures HasFiles(s.registry) ==> r.session.startChat
    ensures HasFiles(s.registry) ==> (r.notice == ChatStarted <==> newThread.Some?)
    ensures HasFiles(s.registry) && newThread.Some? ==> r.session.threadId == newThread
    ensures newThread.None? ==> r.session.threadId == s.threadId
    ensures r.session.(startChat := s.startChat, threadId := s.threadId) == s
  {
    if !HasFiles(s.registry) then ChatStart(s, ChatRefused)
    else
      var flagged := s.(startChat := true);
      match newThread
      case None => ChatStart(flagged, ChatStartFailed)
      case Some(t) => ChatStart(flagged.(threadId := newThread), ChatStarted)
  }

  /** The chat thread and the quiz thread are kept apart: a quiz request after a
      chat start leaves the chat's thread and flag in place, and the quiz thread
      it creates is the one quiz generation returned, not the chat's. */
  lemma {:induction false} ChatThreadSurvivesQuiz<J>(parse: string -> Option<J>, s: Session<J>, chat: string,
                                                     quiz: string, o: RunOracle)
    requires WellTimed(o)
    requires HasFiles(s.registry) && !Truthy(s.quizThreadId) && quiz != ""
    ensures var started := StartChat(s, Some(chat)).session;
      var after := GenerateQuizHandler(parse, started, Some(quiz), o).session;
      && after.threadId == Some(chat) && after.startChat
      && after.quizThreadId == Some(quiz)
  {
    var started := StartChat(s, Some(chat)).session;
    assert started.registry == s.registry && started.quizThreadId == s.quizThreadId;
  }

  // ---------------------------------------------------------------------------
  // Removing a file from the sidebar.

  datatype RemoveNotice = RemovedOk | RemovedWithWarning

  datatype RemoveRun<J> = RemoveRun(session: Session<J>, notice: RemoveNotice, calls: seq<RemoteCall>)

  /** The removal button's handler: remove remotely and locally, report, and give
      the uploader a new key so the removed file is not re-added. */
  function RemoveHandler<J>(s: Session<J>, name: string, hasClient: bool, succeeds: RemoteCall -> bool): (r: RemoveRun<J>)
    ensures var removal := RemoveFileCompletely(s.registry, name, hasClient, succeeds);
      && (r.notice == RemovedOk <==> removal.removed)
      && r.session.registry == removal.manager
      && r.calls == removal.calls
    ensures r.session.uploaderVersion == s.uploaderVersion + 1 && r.session.lastUploaderState == {}
    ensures r.session.(registry := s.registry, uploaderVersion := s.uploaderVersion, lastUploaderState := s.lastUploaderState) == s
  {
    var removal := RemoveFileCompletely(s.registry, name, hasClient, succeeds);
    var s1 := s.(registry := removal.manager, uploaderVersion := s.uploaderVersion + 1, lastUploaderState := {});
    RemoveRun(s1, if removal.removed then RemovedOk else RemovedWithWarning, removal.calls)
  }

  /** The button is shown only for tracked files, and for those the handler
      always reports success: the warning branch cannot be reached from the
      sidebar, whatever the remote side answers. */
  lemma ListedFileRemovedOk<J>(s: Session<J>, i: int, hasClient: bool, succeeds: RemoteCall -> bool)
    requires 0 <= i < |s.registry.files|
    ensures RemoveHandler(s, s.registry.files[i].originalName, hasClient, succeeds).notice == RemovedOk
  {
  }

  /** Removing the only file and then running the sync step leaves no remote id
      held; if one was held, chat and quiz state are emptied too. */
  lemma {:induction false} RemoveLastFileThenSync<J>(s: Session<J>, hasClient: bool, succeeds: RemoteCall -> bool, o: SetupOracle)
    requires |s.registry.files| == 1
    ensures var name := s.registry.files[0].originalName;
      var after := SyncRegistry(RemoveHandler(s, name, hasClient, succeeds).session, o);
      && after.registry.files == []
      && !Truthy(after.registry.vectorStoreId) && !Truthy(after.registry.assistantId)
      && (Truthy(s.registry.vectorStoreId) || Truthy(s.registry.assistantId) ==>
            after.messages == [] && after.quizData.None? && after.quizThreadId.None? && !after.startChat
            && after.uploaderVersion == s.uploaderVersion + 2)
  {
    var name := s.registry.files[0].originalName;
    var removed := RemoveHandler(s, name, hasClient, succeeds).session;
    assert FirstNamedAt(s.registry.files, name, 0);
    assert removed.registry.files == [];
  }

  // ---------------------------------------------------------------------------
  // Quiz scoring.

  /** A quiz item as the form reads it. */
  datatype QuizItem = QuizItem(question: string, options: seq<string>, correct: string)

  /** Whether item `i` was answered correctly: the selected option equals the
      correct one exactly (no selection never matches). */
  predicate IsCorrect(quiz: seq<QuizItem>, answers: seq<Option<string>>, i: int)
    requires |answers| == |quiz|
  {
    0 <= i < |quiz| && answers[i] == Some(quiz[i].correct)
  }

  /** The number of correct answers among the first `n` items. */
  function CorrectAmong(quiz: seq<QuizItem>, answers: seq<Option<string>>, n: nat): nat
    requires |answers| == |quiz| && n <= |quiz|
  {
    if n == 0 then 0 else CorrectAmong(quiz, answers, n - 1) + (if IsCorrect(quiz, answers, n - 1) then 1 else 0)
  }

  /** The per-question line shown after submitting. */
  datatype Feedback = Correct(number: nat) | Incorrect(number: nat, correctAnswer: string)

  /** The scoring loop: one point and a "correct" line per exact match, an
      "incorrect" line naming the correct option otherwise. `answers[i]` is the
      option selected for question `i`, one per question as the form collects them. */
  method ScoreQuiz(quiz: seq<QuizItem>, answers: seq<Option<string>>) returns (score: nat, results: seq<Feedback>)
    requires |answers| == |quiz|
    ensures score == |set i | 0 <= i < |quiz| && IsCorrect(quiz, answers, i)|
    ensures score <= |quiz|
    ensures |results| == |quiz|
    ensures forall i :: 0 <= i < |quiz| ==>
      results[i] == if IsCorrect(quiz, answers, i) then Correct(i + 1) else Incorrect(i + 1, quiz[i].correct)
  {
    score := 0;
    results := [];
    var idx := 0;
    while idx < |quiz|
      invariant 0 <= idx <= |quiz|
      invariant score == CorrectAmong(quiz, answers, idx)
      invariant |results| == idx
      invariant forall i :: 0 <= i < idx ==>
        results[i] == if IsCorrect(quiz, answers, i) then Correct(i + 1) else Incorrect(i + 1, quiz[i].correct)
    {
      if answers[idx] == Some(quiz[idx].correct) {
        score := score + 1;
        results := results + [Correct(idx + 1)];
      } else {
        results := results + [Incorrect(idx + 1, quiz[idx].correct)];
      }
      idx := idx + 1;
    }
    CorrectAmongCounts(quiz, answers, |quiz|);
  }

  /** The running count is the size of the set of correctly answered indices. */
  lemma {:induction false} CorrectAmongCounts(quiz: seq<QuizItem>, answers: seq<Option<string>>, n: nat)
    requires |answers| == |quiz| && n <= |quiz|
    ensures CorrectAmong(quiz, answers, n) == |set i | 0 <= i < n && IsCorrect(quiz, answers, i)|
    ensures CorrectAmong(quiz, answers, n) <= n
  {
    if n > 0 {
      CorrectAmongCounts(quiz, answers, n - 1);
      var before := set i | 0 <= i < n - 1 && IsCorrect(quiz, answers, i);
      var now := set i | 0 <= i < n && IsCorrect(quiz, answers, i);
      if IsCorrect(quiz, answers, n - 1) {
        assert now == before + {n - 1};
      } else {
        assert now == before;
      }
    }
  }

  /** Two questions, the first answered right and the second wrong, score one. */
  method ScoreExample() returns (score: nat)
    ensures score == 1
  {
    var quiz := [QuizItem("Q1", ["a", "b"], "a"), QuizItem("Q2", ["c", "d"], "c")];
    var results;
    score, results := ScoreQuiz(quiz, [Some("a"), Some("d")]);
    assert (set i | 0 <= i < |quiz| && IsCorrect(quiz, [Some("a"), Some("d")], i)) == {0};
  }
}

=== FILE: text.dfy ===
/** The handful of Python `str` operations the orchestration layer relies on:
    `strip`, `startswith`, `find`/`rfind`, ASCII `lower`, `replace`, `join`
    and decimal formatting of a non-negative integer. */
module Text {
  import opened Wrappers

  /** `str.isspace` for one character: what `str.strip()` without arguments removes. */
  predicate IsSpace(c: char) {
    || c == ' '
    || ('\t' <= c <= '\r')
    || ('\U{1c}' <= c <= '\U{1f}')
    || c == '\U{85}' || c == '\U{a0}' || c == '\U{1680}'
    || ('\U{2000}' <= c <= '\U{200a}')
    || c == '\U{2028}' || c == '\U{2029}' || c == '\U{202f}' || c == '\U{205f}' || c == '\U{3000}'
  }

  predicate StartsWith(s: string, prefix: string) {
    |prefix| <= |s| && s[..|prefix|] == prefix
  }

  /** `s[i]` is the first occurrence of `c` in `s`. */
  ghost predicate FirstAt(s: string, c: char, i: int) {
    0 <= i < |s| && s[i] == c && forall k :: 0 <= k < i ==> s[k] != c
  }

  /** `s[i]` is the last occurrence of `c` in `s`. */
  ghost predicate LastAt(s: string, c: char, i: int) {
    0 <= i < |s| && s[i] == c && forall k :: i < k < |s| ==> s[k] != c
  }

  lemma FirstAtUnique(s: string, c: char, i: int, j: int)
    requires FirstAt(s, c, i) && FirstAt(s, c, j)
    ensures i == j
  {
  }

  /** `str.find` for a single character, with `None` for -1. */
  function FirstIndexOf(s: string, c: char): (r: Option<nat>)
    ensures r.Some? ==> FirstAt(s, c, r.value)
    ensures r.None? <==> forall k :: 0 <= k < |s| ==> s[k] != c
    decreases |s|
  {
    if |s| == 0 then None
    else if s[0] == c then Some(0)
    else
      match FirstIndexOf(s[1..], c)
      case None => None
      case Some(i) => Some(i + 1)
  }

  /** `str.rfind` for a single character, with `None` for -1. */
  function LastIndexOf(s: string, c: char): (r: Option<nat>)
    ensures r.Some? ==> LastAt(s, c, r.value)
    ensures r.None? <==> forall k :: 0 <= k < |s| ==> s[k] != c
    decreases |s|
  {
    if |s| == 0 then None
    else if s[|s| - 1] == c then Some(|s| - 1)
    else LastIndexOf(s[..|s| - 1], c)
  }

  /** `s.lstrip(chars)`: drops the longest prefix made of characters `drop` accepts. */
  function TrimStart(s: string, drop: char -> bool): (r: string)
    ensures |r| <= |s| && r == s[|s| - |r|..]
    ensures forall k :: 0 <= k < |s| - |r| ==> drop(s[k])
    ensures r == [] || !drop(r[0])
    decreases |s|
  {
    if |s| > 0 && drop(s[0]) then TrimStart(s[1..], drop) else s
  }

  /** `s.rstrip(chars)`: drops the longest suffix made of characters `drop` accepts. */
  function TrimEnd(s: string, drop: char -> bool): (r: string)
    ensures |r| <= |s| && r == s[..|r|]
    ensures forall k :: |r| <= k < |s| ==> drop(s[k])
    ensures r == [] || !drop(r[|r| - 1])
    decreases |s|
  {
    if |s| > 0 && drop(s[|s| - 1]) then TrimEnd(s[..|s| - 1], drop) else s
  }

  /** `s.strip(chars)`: both ends trimmed; the result is a slice of `s` whose
      neighbours on either side were all dropped. */
  function Strip(s: string, drop: char -> bool): (r: string)
    ensures exists a :: SliceBetweenDropped(s, r, a, drop)
    ensures r == [] || (!drop(r[0]) && !drop(r[|r| - 1]))
  {
    var t := TrimStart(s, drop);
    var r := TrimEnd(t, drop);
    TrimmedBothEnds(s, t, r, drop);
    r
  }

  /** A suffix `t` of `s` whose cut-off part is dropped, and a prefix `r` of `t`
      whose cut-off part is dropped, make `r` a slice of `s` between dropped parts. */
  lemma TrimmedBothEnds(s: string, t: string, r: string, drop: char -> bool)
    requires |t| <= |s| && t == s[|s| - |t|..] && forall k :: 0 <= k < |s| - |t| ==> drop(s[k])
    requires |r| <= |t| && r == t[..|r|] && forall k :: |r| <= k < |t| ==> drop(t[k])
    ensures SliceBetweenDropped(s, r, |s| - |t|, drop)
  {
    var a := |s| - |t|;
    assert r == s[a..a + |r|];
    forall k | a + |r| <= k < |s|
      ensures drop(s[k])
    {
      assert s[k] == t[k - a];
    }
  }

  /** `r` is `s[a..a + |r|]` and every character of `s` outside that slice is dropped. */
  ghost predicate SliceBetweenDropped(s: string, r: string, a: int, drop: char -> bool) {
    && 0 <= a && a + |r| <= |s| && r == s[a..a + |r|]
    && (forall k :: 0 <= k < a ==> drop(s[k]))
    && (forall k :: a + |r| <= k < |s| ==> drop(s[k]))
  }

  /** A prefix made only of dropped characters disappears under `TrimStart`. */
  lemma {:induction false} TrimStartDropped(p: string, s: string, drop: char -> bool)
    requires forall k :: 0 <= k < |p| ==> drop(p[k])
    ensures TrimStart(p + s, drop) == TrimStart(s, drop)
    decreases |p|
  {
    if |p| > 0 {
      assert drop((p + s)[0]) by { assert (p + s)[0] == p[0]; }
      assert (p + s)[1..] == p[1..] + s;
      assert TrimStart(p + s, drop) == TrimStart(p[1..] + s, drop);
      TrimStartDropped(p[1..], s, drop);
    } else {
      assert p + s == s;
    }
  }

  /** A suffix made only of dropped characters disappears under `TrimEnd`. */
  lemma {:induction false} TrimEndDropped(s: string, p: string, drop: char -> bool)
    requires forall k :: 0 <= k < |p| ==> drop(p[k])
    ensures TrimEnd(s + p, drop) == TrimEnd(s, drop)
    decreases |p|
  {
    if |p| > 0 {
      assert drop((s + p)[|s + p| - 1]) by { assert (s + p)[|s + p| - 1] == p[|p| - 1]; }
      assert (s + p)[..|s + p| - 1] == s + p[..|p| - 1];
      assert TrimEnd(s + p, drop) == TrimEnd(s + p[..|p| - 1], drop);
      TrimEndDropped(s, p[..|p| - 1], drop);
    } else {
      assert s + p == s;
    }
  }

  /** When the first character and the one at `q - 1` are kept, `Strip` cuts only
      from the end, and never inside `s[..q]`. */
  lemma StripFromEndOnly(s: string, q: int, drop: char -> bool)
    requires 0 < q <= |s| && !drop(s[0]) && !drop(s[q - 1])
    ensures var r := Strip(s, drop);
      q <= |r| && r == s[..|r|] && forall k :: |r| <= k < |s| ==> drop(s[k])
  {
    var r := Strip(s, drop);
    var a :| SliceBetweenDropped(s, r, a, drop);
    assert a == 0;
    assert q <= |r|;
  }

  /** Stripping a string whose two ends are kept leaves it unchanged. */
  lemma StripKeeps(s: string, drop: char -> bool)
    requires s == [] || (!drop(s[0]) && !drop(s[|s| - 1]))
    ensures Strip(s, drop) == s
  {
  }

  function LowerChar(c: char): char {
    if 'A' <= c <= 'Z' then (c as int + 32) as char else c
  }

  /** `str.lower` restricted to ASCII letters. */
  function Lower(s: string): (r: string)
    ensures |r| == |s|
    ensures forall k :: 0 <= k < |s| ==> r[k] == LowerChar(s[k])
  {
    seq(|s|, k requires 0 <= k < |s| => LowerChar(s[k]))
  }

  /** `rep` written after every character of `s`. */
  function Spread(s: string, rep: string): string
    decreases |s|
  {
    if |s| == 0 then [] else [s[0]] + rep + Spread(s[1..], rep)
  }

  /** `s.replace(pat, rep)`: every non-overlapping occurrence, scanned left to
      right, is replaced; an empty `pat` matches before every character and at the end. */
  function ReplaceAll(s: string, pat: string, rep: string): string
    decreases |s|
  {
    if |pat| == 0 then rep + Spread(s, rep)
    else if |s| < |pat| then s
    else if s[..|pat|] == pat then rep + ReplaceAll(s[|pat|..], pat, rep)
    else [s[0]] + ReplaceAll(s[1..], pat, rep)
  }

  /** `pat` occurs in `s` at offset `i`. */
  ghost predicate OccursAt(s: string, pat: string, i: int) {
    0 <= i && i + |pat| <= |s| && s[i..i + |pat|] == pat
  }

  /** Replacing a pattern that does not occur in `s` gives `s` back. */
  lemma {:induction false} ReplaceAbsent(s: string, pat: string, rep: string)
    requires |pat| > 0
    requires forall i :: 0 <= i <= |s| - |pat| ==> !OccursAt(s, pat, i)
    ensures ReplaceAll(s, pat, rep) == s
    decreases |s|
  {
    if |s| >= |pat| {
      assert !OccursAt(s, pat, 0);
      assert s[..|pat|] != pat by { assert s[0..|pat|] == s[..|pat|]; }
      forall i | 0 <= i <= |s[1..]| - |pat|
        ensures !OccursAt(s[1..], pat, i)
      {
        assert !OccursAt(s, pat, i + 1);
        assert s[1..][i..i + |pat|] == s[i + 1..i + 1 + |pat|];
      }
      ReplaceAbsent(s[1..], pat, rep);
    }
  }

  /** A pattern that occurs exactly once, right after `u`, is replaced there and
      nowhere else. */
  lemma {:induction false} ReplaceOnce(u: string, pat: string, w: string, rep: string)
    requires |pat| > 0
    requires forall i :: OccursAt(u + pat + w, pat, i) ==> i == |u|
    ensures ReplaceAll(u + pat + w, pat, rep) == u + rep + w
    decreases |u|
  {
    if |u| == 0 {
      assert u + pat + w == pat + w;
      ReplaceAtStart(pat, w, rep);
    } else {
      OnceAfterFirst(u, pat, w);
      ReplaceOnce(u[1..], pat, w, rep);
      var s := u + pat + w;
      assert ReplaceAll(s, pat, rep) == [s[0]] + ReplaceAll(s[1..], pat, rep) by {
        assert !OccursAt(s, pat, 0);
        assert s[..|pat|] != pat by { assert s[0..|pat|] == s[..|pat|]; }
      }
      assert [s[0]] + (u[1..] + rep + w) == u + rep + w;
    }
  }

  /** The only occurrence at the very start is replaced and the rest is kept. */
  lemma ReplaceAtStart(pat: string, w: string, rep: string)
    requires |pat| > 0
    requires forall i :: OccursAt(pat + w, pat, i) ==> i == 0
    ensures ReplaceAll(pat + w, pat, rep) == rep + w
  {
    var s := pat + w;
    assert s[..|pat|] == pat;
    assert s[|pat|..] == w;
    forall i | 0 <= i <= |w| - |pat|
      ensures !OccursAt(w, pat, i)
    {
      if OccursAt(w, pat, i) {
        assert s[|pat| + i..|pat| + i + |pat|] == w[i..i + |pat|];
        assert OccursAt(s, pat, |pat| + i);
      }
    }
    ReplaceAbsent(w, pat, rep);
  }

  /** Dropping a first character that does not start the occurrence keeps the
      occurrence unique, one place earlier. */
  lemma OnceAfterFirst(u: string, pat: string, w: string)
    requires |u| > 0
    requires forall i :: OccursAt(u + pat + w, pat, i) ==> i == |u|
    ensures (u + pat + w)[1..] == u[1..] + pat + w
    ensures forall i :: OccursAt(u[1..] + pat + w, pat, i) ==> i == |u[1..]|
  {
    var s := u + pat + w;
    assert s[1..] == u[1..] + pat + w;
    forall i | OccursAt(u[1..] + pat + w, pat, i)
      ensures i == |u[1..]|
    {
      assert s[1..][i..i + |pat|] == s[i + 1..i + 1 + |pat|];
      assert OccursAt(s, pat, i + 1);
    }
  }

  /** `sep.join(parts)`. */
  function Join(parts: seq<string>, sep: string): string
    decreases |parts|
  {
    if |parts| == 0 then []
    else if |parts| == 1 then parts[0]
    else parts[0] + sep + Join(parts[1..], sep)
  }

  function Digit(d: nat): char
    requires d < 10
  {
    "0123456789"[d]
  }

  /** `str(n)` for a non-negative integer: its decimal digits, most significant first. */
  function NatToString(n: nat): (s: string)
    ensures 1 <= |s|
    ensures forall k :: 0 <= k < |s| ==> '0' <= s[k] <= '9'
    ensures n < 10 ==> s == [Digit(n)]
    ensures n >= 10 ==> s[0] != '0'
    decreases n
  {
    if n < 10 then [Digit(n)] else NatToString(n / 10) + [Digit(n % 10)]
  }
}

=== FILE: wrappers.dfy ===
/** Failure-compatible wrappers used throughout the model: `Option` for Python's
    `None`-or-value and `Result` for a value or a raised exception. */
module Wrappers {

  datatype Option<+T> = None | Some(value: T) {

    /** The wrapped value, or `default` for `None`. */
    function GetOr(default: T): T {
      match this
      case Some(v) => v
      case None => default
    }
  }

  datatype Result<+R, +E> = Success(value: R) | Failure(error: E) {

    predicate IsFailure() {
      Failure?
    }

    function PropagateFailure<U>(): Result<U, E>
      requires Failure?
    {
      Failure(error)
    }

    function Extract(): R
      requires Success?
    {
      value
    }
  }
}
